=== FILE: README.md ===
# board-wolf content core, in Dafny

A model of the content core of the board-wolf message-board backend. A
**thread** embeds its **messages**, and each message embeds its **comments**.
Every node carries an `upvotes`/`downvotes` tally. A separate **vote ledger**
holds one record per (user, content) pair.

The model covers:

- the three-way vote transition every node applies;
- the ledger reads and writes of the board controller;
- the cascading create, edit, vote and remove operations of the three Mongoose
  schemas, with their counters and `updated` timestamps;
- the controller's ownership guards, `newThread` validation, edit-input gating
  and vote responses;
- the read side: list-query building, and enrichment of every node with its
  author's profile and the caller's vote.

Everything is immutable datatypes and pure functions. Loops appear only where
the controller loops: indexing records by ID and collecting IDs in pre-order.

Modules, one per concern:

| module | what it holds |
|---|---|
| `Common` | IDs, times, `Option`, `Result`, save outcomes, truthiness |
| `Votes` | `Tally` and the shared transition `Cast` |
| `Content` | the `Thread`/`Message`/`Comment` datatypes, `.id()` and `.pull()`, the invariant predicates |
| `Threads`, `Messages`, `Comments` | the schema methods |
| `Ledger` | `checkVote` and `storeUserVote` |
| `Board` | guards, `newThread`, edit gating, guarded removals, vote handlers |
| `Invariants` | tally/ledger agreement over a whole thread |
| `Lifecycle` | all invariants kept through any run of posts, edits and votes |
| `Removals` | how removals as written break the counters; the stale-clock case |
| `Query` | the list query |
| `Views` | `getThread`/`listThreads` enrichment |
| `Scenarios` | two concrete runs |

Conventions:

- **Time.** Times are `nat`. The current time is a parameter `now`.
- **Saves.** Each `save` is a parameter, `Saved` or `SaveFailed`. A failed save
  gives `Err(DBError)`, and the stored thread is the one passed in. The thread
  is the only document actually stored, so this matches a failed final save.
- **Failed lookups.** When `.id()` finds nothing, the source goes on to
  dereference `null` and the request dies. The model gives `Err(MissingTarget)`
  instead.

The source behaves as follows, and the model does the same:

- **Edit gating.** The edit handlers pass the new `text` only when the body's
  *title* is truthy (`Board.TextArg`). A text-only edit therefore changes
  nothing except `updated` (`Board.TextOnlyEditIgnored`).
- **Create assigns `updated`.** `newMessage` and `Message.newComment` set the
  parent's `updated` directly; it is not a max. With a clock behind the thread's
  `updated`, `newMessage` moves it backwards and breaks the timestamp order
  (`Removals.StaleClockBreaksOrder`).
- **Edit and comment creation take a max.** Message edit, comment edit and
  comment creation move the thread's `updated` by max.
- **Removals decrement blindly.** They decrement unconditionally, even when
  nothing was pulled. They never adjust the thread's `commentsNumber`. The
  lemmas in `Removals` give the exact distance from each counter to what it
  counts afterwards.
- **Message saves are ignored in comment operations.** Comment edit and comment
  votes test the comment save's error where they mean the message save's. A
  failed message save is therefore ignored (`Comments.MessageSaveIgnored`).
- **Shadowed and missing delegators.** `schemas/thread.js` defines
  `editMessage` twice: the comment-edit version at line 115 replaces the
  message-edit version at line 83. No `editComment` exists on the thread, yet
  the controller calls it. The model therefore states message edit
  (`Messages.Edit`) and comment edit (`Comments.Edit`) directly on the thread,
  locating the message by ID as the other delegators do.
- **`newThread` validation.** The handler requires all four of title, text,
  country and language to be present, or answers MissingData. The save then
  applies the schema's `required: true` checks (`schemas/thread.js:13-15`):
  an empty title, text or author makes it fail, answered DBError. The same
  check refuses an empty text or author when a message or comment is created.
- **Country and language.** The handler passes both to the thread
  constructor and `listThreads` filters on them. The thread schema
  (`schemas/thread.js:12-23`) declares neither, so under Mongoose's default
  strict mode the constructor drops them: nothing stored carries them, and a
  list filter on either selects no thread. The model keeps both fields on
  `Thread`; see "## Left out".

Further behaviour of the code that is easy to assume otherwise:

- Creation assigns the parent's `updated` rather than taking a max.
- Removal leaves the thread's `commentsNumber` alone.
- Failures of the identity service are answered `DBError`.
- Responses carry no `owned` flag.
- Creation checks for country and language too.
- A store error in the `checkVote` read stops the request and changes nothing. The call at controllers/board.js:45 passes its arguments in a different order from the other `errors.send` calls.
- The vote ledger is keyed by the ID as the URL spells it, but the thread is found by casting that text to an object ID. A thread's first vote is stored under the loaded thread's ID. See "## Findings".

## Model

| member | source | states |
|---|---|---|
| `Votes.Cast` | schemas/thread.js:37-55 | The tally moves from the caller's old share to the new one, using an independent share table (none, +1, -1). Repeating the recorded direction is a no-op. `upvotes + downvotes` grows by 1 exactly on a first vote. |
| `Votes.FlipMovesOneVote` | schemas/message.js:40-70 | A flip moves exactly one vote from one side to the other. |
| `Votes.CastIsIdempotent` | schemas/comment.js:39-79 | Once the ledger records the direction, casting it again changes nothing. |
| `Content.IndexOfId` | schemas/thread.js:59-61 | `.id()` returns the first position carrying the ID, or none when no element carries it. |
| `Content.Pull` | schemas/thread.js:88-89 | `.pull()` shortens the array by the number of elements carrying the ID. Nothing changes when the ID is absent. |
| `Content.PullMembers` | schemas/thread.js:88-89 | After `.pull()`, an element is present exactly when it was present before and does not carry the ID. |
| `Content.PullSingle` | schemas/message.js:114-115 | When exactly one element carries the ID, pulling it splices out that element. |
| `Threads.Edit` | schemas/thread.js:27-35 | Title and text are replaced only by truthy values, otherwise kept. `updated` becomes `now` even if nothing changed. Nothing else moves. It is Ok iff the save succeeds. |
| `Threads.Vote` | schemas/thread.js:37-55 | The thread's tally follows `Cast`; nothing else moves; a failed save gives DBError. |
| `Threads.NewMessage` | schemas/thread.js:63-81 | Ok iff the text and author are non-empty (the schema's `required` check) and the save succeeds. Exactly one message is appended at the end, with the given text and author, zero votes and no comments. `messagesNumber` rises by 1, `updated` is set to the message's time, and the message is returned. |
| `Threads.RemoveMessage` | schemas/thread.js:88-92 | Messages with the ID are pulled, and `messagesNumber` drops by 1 unconditionally. `commentsNumber` and `updated` are untouched. |
| `Messages.Locate` | schemas/thread.js:94-96 | The delegators find the message by ID: the first match, or none. |
| `Messages.Edit` | schemas/message.js:25-37 | Only the addressed message changes. Its text is replaced only by a truthy value, and its `updated` becomes `now`. The thread's `updated` becomes the max of the old value and `now`. A failed message save leaves the thread unmodified. |
| `Messages.Vote` | schemas/message.js:40-70 | Only the addressed message's tally changes, following `Cast`. The thread's tally and every other message are unchanged. |
| `Messages.NewComment` | schemas/message.js:78-107 | Ok iff the message exists, the text and author are non-empty, and both saves succeed. One comment is appended and the message's `commentsNumber` rises by 1. The message's `updated` becomes the comment's time. The thread's `commentsNumber` rises by 1, and its `updated` becomes the max of the old value and the comment's time. The comment is returned. A failed message save changes nothing. |
| `Messages.RemoveComment` | schemas/message.js:114-124 | Comments with the ID are pulled from the addressed message, whose `commentsNumber` drops by 1. The thread's `commentsNumber` is not changed. |
| `Comments.LocateIn` | schemas/message.js:74-76 | `getComment` finds the comment by ID: the first match, or none. |
| `Comments.Edit` | schemas/comment.js:17-37 | The comment's text is replaced only by a truthy value. The message's and the thread's `updated` each become the max of the old value and `now`, so neither regresses. Only the addressed comment and its ancestors' times change. |
| `Comments.Vote` | schemas/comment.js:39-79 | Only the comment's tally changes, following `Cast`. The message's and thread's tallies and timestamps are unchanged; they are only re-saved. |
| `Comments.MessageSaveIgnored` | schemas/comment.js:27-29 | The outcome of the message-level save makes no difference to edit or vote. |
| `Ledger.CheckVote` | controllers/board.js:39-56 | Returns none exactly when the ledger has no record for (user, content), and otherwise that record's value. |
| `Ledger.StoreUserVote` | controllers/board.js:834-855 | Given the record `checkVote` found, the pair afterwards maps to the new value: inserted, overwritten, or left equal. No other pair is touched. |
| `Ledger.StoreMovesVoter` | controllers/board.js:834-855 | Writing v for (user, content) adds the user to that content's v-voters and removes them from the other sign's voters. |
| `Ledger.VoteKeepsTallyMatched` | controllers/board.js:650-665 | Do `checkVote`, then the tally transition, then `storeUserVote`. If each tally counted the users whose ledger value has its sign before, it still does after. Other contents' voters are unchanged. |
| `Board.OwnsThread` | controllers/board.js:59-64 | Allows iff the thread's author is the caller; otherwise Unauthorized. |
| `Board.OwnsMessage` | controllers/board.js:67-73 | Allows iff the message exists and its author is the caller. A missing message is MissingTarget; a stranger gets Unauthorized. |
| `Board.OwnsComment` | controllers/board.js:76-82 | Allows iff the comment resolves and its author is the caller; otherwise MissingTarget or Unauthorized. |
| `Board.NewThread` | controllers/board.js:360-389 | MissingData iff any of title, text, country or language is absent. Ok iff all four are present, title, text and author are non-empty (the schema's `required` check at save), and the save succeeds. The thread then holds exactly those fields, the caller as author and zero counters. It starts with its invariants holding. |
| `Board.TitleArg` | controllers/board.js:412-412 | The title passed on is truthy iff the body's title is, and then it equals it. |
| `Board.TextArg` | controllers/board.js:413-413 | The text is passed only when the body's title is truthy; otherwise nothing truthy is passed. |
| `Board.EditThread` | controllers/board.js:409-422 | A non-author gets Unauthorized. The author gets the schema edit with the gated title and text. |
| `Board.TextOnlyEditIgnored` | controllers/board.js:413-416 | A body with only a text leaves the thread as it was, except for `updated`. |
| `Board.RemoveThread` | controllers/board.js:439-448 | Succeeds iff the caller is the author and the delete succeeds. Otherwise Unauthorized or DBError. |
| `Board.RemoveMessage` | controllers/board.js:531-538 | A missing message gives MissingTarget, and a caller who is not its author gets Unauthorized. Ok iff the caller is the author and the save succeeds. Then exactly the messages with other IDs remain, `messagesNumber` drops by 1, and nothing else moves. |
| `Board.ForeignMessageDeleteKeepsThread` | controllers/board.js:67-73 | A message delete by anyone but the message's author leaves the stored thread as it was. |
| `Board.RemoveComment` | controllers/board.js:624-631 | A comment that does not resolve gives MissingTarget, and a caller who is not its author gets Unauthorized. Ok iff the caller is the author and both saves succeed. Then only the addressed message changes: exactly its comments with other IDs remain and its `commentsNumber` drops by 1. |
| `Board.ForeignCommentDeleteKeepsThread` | controllers/board.js:76-82 | A comment delete by anyone but the comment's author leaves the stored thread as it was. |
| `Board.ApplyVoteMovesTally` | controllers/board.js:715-730 | A vote on any target succeeds iff the target resolves and its saves succeed. Afterwards the target's tally is `Cast` of the old one. |
| `Board.CastVote` | controllers/board.js:650-665 | A store error in the `checkVote` read gives DBError. On any error nothing is stored or recorded. On success the stored thread is the schema vote's result, so only the target's tally moves. The reply carries the target's new tally and `voted` = +1 or -1 by direction, whatever the previous vote. The ledger then maps (user, target) to that value and no other pair changes, or it is unchanged if its write fails. |
| `Board.CastVoteAsWritten` | controllers/board.js:24-57 | The vote request keyed as the handlers key it: the read uses the URL text, a first vote is inserted under the loaded thread's ID for a thread vote, and a changed vote rewrites the record read, under the URL text. A failed ledger write leaves the ledger as it was. When the URL spells the stored ID it is exactly `Board.CastVote`. Otherwise the tally moves from the vote recorded under the URL text. The reply carries the new tally and `voted` = +1 or -1 by direction. |
| `Board.RespelledThreadIdCountsTwice` | controllers/board.js:650-665 | A user who upvoted thread "ab" upvotes again through "AB". The second upvote counts, the reply is (2, 0, 1), and the tally no longer counts the ledger's voters. With the stored spelling, the reply is (1, 0, 1) and the tally still matches. |
| `Invariants.VoteKeepsLedgerAgreement` | controllers/board.js:782-831 | If every node's tally matches the ledger before a vote request on the thread, message or comment, it still does after, provided the ledger write goes through. |
| `Invariants.NewThreadAgrees` | controllers/board.js:380-382 | A fresh thread agrees with a ledger that has no record for its ID. |
| `Lifecycle.NewMessageKeeps` | schemas/thread.js:63-81 | Posting a message with a fresh ID at a time not before the thread's `updated` keeps counters, timestamp order, distinct IDs and ledger agreement. |
| `Lifecycle.NewCommentKeeps` | schemas/message.js:78-107 | The same holds for posting a comment. |
| `Lifecycle.ThreadEditKeeps` | schemas/thread.js:27-35 | A thread edit keeps all the invariants for a clock that does not run backwards. |
| `Lifecycle.MessageEditKeeps` | schemas/message.js:25-37 | A message edit keeps all the invariants for a clock that does not run backwards. |
| `Lifecycle.CommentEditKeeps` | schemas/comment.js:17-37 | A comment edit keeps all the invariants whatever the clock says. |
| `Lifecycle.VoteKeeps` | controllers/board.js:650-831 | A vote request keeps all the invariants when the ledger write succeeds. |
| `Lifecycle.RunKeeps` | schemas/thread.js:63-133 | All the invariants hold after any feasible sequence of posts, edits and votes. Feasible means fresh IDs, and no backwards clock where `updated` is assigned. |
| `Lifecycle.StepKeepsCounters` | schemas/thread.js:63-133 | Any post, edit or vote keeps every counter equal to what it counts. This holds for any ID and any clock. |
| `Lifecycle.RunKeepsCounters` | schemas/thread.js:63-133 | The counter invariant holds after any sequence of posts, edits and votes, whether or not the run is feasible. |
| `Lifecycle.CreatedThreadStaysHealthy` | controllers/board.js:360-389 | A thread from `newThread` satisfies every invariant after any feasible run. |
| `Removals.RemoveMessageSplices` | schemas/thread.js:88-92 | Under distinct IDs, removing a present message splices exactly that message out. `messagesNumber` drops by 1 and `commentsNumber` is untouched. |
| `Removals.RemoveMessageStrandsComments` | schemas/thread.js:88-92 | Removing a present message keeps `messagesNumber` right. The thread's `commentsNumber` still counts the removed message's comments. The counters match afterwards iff it had none. |
| `Removals.RemoveAbsentMessageMiscounts` | schemas/thread.js:88-92 | Removing an absent ID leaves the messages alone but still decrements `messagesNumber`. |
| `Removals.RemoveCommentLeavesThreadCount` | schemas/message.js:114-124 | Removing a present comment keeps the message counters right. The thread's `commentsNumber` ends one too high. |
| `Removals.RemoveAbsentCommentMiscounts` | schemas/message.js:114-124 | Removing an absent comment ID still decrements the message's `commentsNumber`. |
| `Removals.StaleClockBreaksOrder` | schemas/thread.js:71-71 | With a clock behind the thread's `updated`, `newMessage` moves it backwards and breaks the timestamp order. |
| `Query.BuildQuery` | controllers/board.js:133-147 | A filter is set iff its parameter is present and non-empty; `lang` fills `language`. Offset is 0 and count 20 when the parameter is absent or not a number. |
| `Query.QuerySelects` | controllers/board.js:133-136 | The query matches a thread iff its country and language equal every non-empty parameter given. |
| `Query.EmptyFilterIsNoFilter` | controllers/board.js:133-136 | An empty country or language parameter builds the same query as a missing one. |
| `Views.IndexBy` | controllers/board.js:313-315 | The indexing loop keeps exactly one entry per key, holding the last record with that key. |
| `Views.VotedFromLedger` | controllers/board.js:318-318 | Indexed from a correct vote lookup, `voted` is the ledger value or 0. |
| `Views.AuthorFromProfiles` | controllers/board.js:319-319 | `author` is a returned profile with that user's ID, or `{}` exactly when none was returned. |
| `Views.MessagesRefsCover` | controllers/board.js:281-288 | The message walk yields `|messages| + total comments` nodes, every message and comment among them. |
| `Views.PreorderCovers` | controllers/board.js:276-288 | The collected list has length 1 + messages + total comments, starts with the thread, and contains every node. |
| `Views.CollectRefs` | controllers/board.js:276-288 | The nested loops collect IDs and authors in pre-order: the thread, then each message followed by its comments. |
| `Views.GetThread` | controllers/board.js:270-339 | The method asks about the pre-order node list. Either failed lookup gives DBError. Otherwise every node is enriched from the indexed answers. |
| `Views.GetThreadShowsLedger` | controllers/board.js:317-329 | With a correct vote lookup, every node of the returned thread shows the caller's ledger vote on it, or 0. |
| `Views.ListShowsLedger` | controllers/board.js:196-203 | With a correct vote lookup for the thread IDs the handler asks about (`PageRefs`), each summary shows the caller's ledger vote, or 0. |
| `Views.CollectPageRefs` | controllers/board.js:157-162 | The loop pushes exactly one (ID, author) pair per listed thread, in page order (`PageRefs`). |
| `Views.SummaryMap` | controllers/board.js:176-204 | One summary per thread ID of the page and no other key. Each is the thread's summary, enriched from the indexed author and vote answers. |
| `Views.ListThreads` | controllers/board.js:124-216 | The method sends the built query. It asks the two lookups about the page's authors and thread IDs, in page order. A failed find gives DBError, and an empty page gives `{}` with no further lookup. Otherwise there is one summary per returned thread ID, with no messages, each enriched from the indexed answers. |
| `Scenarios.DownvoteThenUpvote` | controllers/board.js:650-697 | A downvote answers (0, 1, -1), and the following upvote answers (1, 0, 1). The ledger then holds +1. |
| `Scenarios.PostThenComment` | schemas/message.js:78-107 | Thread, then message, then comment: both counters read 1 and the nodes carry their text and author. |

## Findings

| source | as written | input that shows it | evidently intended | confidence | as-written member | corrected member |
|---|---|---|---|---|---|---|
| controllers/board.js:24-26 | `checkVote` looks the previous vote up under the URL text of the ID. `threadParam` finds the thread by casting that text to an object ID, and the first vote is stored under `req.thread.id`. | A user has upvoted a thread, then upvotes it again through the upper-case hex spelling of its ID, which the object-ID cast accepts. The model writes the two spellings as `ab` and `AB`. | One record per user and node: the repeated upvote changes nothing. | medium, not executed | `Board.CastVoteAsWritten`, `Board.RespelledThreadIdCountsTwice` | `Board.CastVote`, `Invariants.VoteKeepsLedgerAgreement` |

## Left out

- Routing and middleware order (`routes/board.js`) is not modelled. The guards are modelled as functions the handlers are composed with.
- Database connection, configuration and the static handler are not modelled; they are I/O and constants.
- The identity service (`models/user.js`) is an oracle: its answer is a parameter. As written, it hands the `request` library's response object to the controller as `authors`. That object has no `length`, so the indexing loop would see no profiles; `Views.AuthorFromProfiles` with an empty answer covers that case.
- The vote store's lookup (`UserVote.find`) is an oracle too. `Views.AnswersVotes` states what a correct answer is.
- Mongo's query execution (filter, sort by `updated` descending, skip, limit) is not modelled. `Views.ListThreads` takes the page as returned, and `Query.Matches` states what the filters select.
- The conversion of the `off`/`num` text to a number is not modelled. `Query.NumParam` takes `isNaN`'s verdict as given.
- The message-edit and comment-edit controller handlers are not modelled as written. The thread-level delegate they call is the shadowed comment-edit signature, or does not exist. `Messages.Edit` and `Comments.Edit` state the schema behaviour the handlers evidently target.
- `getMessage`/`getComment` read handlers are not modelled. They return a node's JSON unchanged.
- `threadParam` (find by ID) is not modelled; every operation receives the loaded thread. Its cast of the URL text to an object ID means several spellings reach one thread; `Board.CastVoteAsWritten` takes the spelling as a parameter.
- Board.CastVote: keys the ledger read and write by the node's stored ID, which is the request when the URL spells that ID. With another spelling, a repeated vote is counted again and the user's records are split across keys. `Board.CastVoteAsWritten` and `Board.RespelledThreadIdCountsTwice` model that case.
- Invariants.VoteKeepsLedgerAgreement: proved for `Board.CastVote`, i.e. for URLs that spell the stored IDs. `Board.RespelledThreadIdCountsTwice` shows the agreement failing otherwise.
- Messages.Locate: matches IDs as exact strings, whereas DocumentArray `.id()` casts its argument to an object ID. A message or comment vote through a respelled ID therefore reaches the node while the ledger is keyed by the respelled text. This is the same double count as the thread case.
- Board.CastVoteAsWritten: the ledger is a map, so a first vote inserted under a key that already has a record overwrites it. The store would hold two records for the pair.
- The comment's `updated` assignment in `schemas/comment.js` is not modelled, because the comment schema has no `updated` path and the value is not stored.
- Concurrency is not modelled: interleaved requests and the lost updates they cause.
- The asynchronous ledger write is modelled as a save outcome applied after the response. `Lifecycle.VoteKeeps` and `Invariants.VoteKeepsLedgerAgreement` assume it succeeds. A failed write leaves the tally one step ahead of the ledger.
- Error messages, logging and HTTP status codes are not modelled.
- Board.NewThread: the thread keeps the body's country and language, although the schema (`schemas/thread.js:12-23`) declares neither and Mongoose's default strict mode drops both when the document is built. The model states the evident intent.
- Query.Matches: selects threads by stored country and language. As written no stored thread carries either field, so a set filter selects no thread. Mongo's matching is not modelled.
- Schema validation beyond the `required` check on String paths (type casting of non-string body values, the vote record's own schema) is not modelled.
- Board.NewThread: a body field is `Option<string>`, so it cannot hold the number `-1`. `newThread` (controllers/board.js:363-368) marks an absent field with `-1` and tests `=== -1`, so a request whose field is the number `-1` is also answered MissingData. The model has no such input.
- Integer widths are not modelled. Tallies and counters are unbounded integers and may go negative, as the source allows. `Date` values are `nat`.

=== FILE: board.dfy ===
/** The write side of the board controller (controllers/board.js): ownership
    guards, thread creation, edit-input gating, the guarded handlers, and the
    vote handlers with their responses and ledger writes. */
module Board {
  import opened Common
  import opened Votes
  import opened Content
  import opened Ledger
  import Threads
  import Messages
  import Comments

  /** What a guard middleware does: pass to the next handler, or answer with an error. */
  datatype Guard = Allow | Deny(error: BoardError)

  /** `userOwnsThread`: only the thread's author passes. */
  function OwnsThread(t: Thread, user: UserId): (g: Guard)
    ensures g.Allow? <==> t.author == user
    ensures g.Deny? ==> g.error == Unauthorized
  {
    if t.author == user then Allow else Deny(Unauthorized)
  }

  /** `userOwnsMessage`: only the message's author passes; a missing message
      is dereferenced by the source and ends the request. */
  function OwnsMessage(t: Thread, mid: Id, user: UserId): (g: Guard)
    ensures g.Allow? <==> Messages.Locate(t, mid).Some? && t.messages[Messages.Locate(t, mid).value].author == user
    ensures g.Deny? ==> g.error == (if Messages.Locate(t, mid).None? then MissingTarget else Unauthorized)
  {
    match Messages.Locate(t, mid)
    case None => Deny(MissingTarget)
    case Some(i) => if t.messages[i].author == user then Allow else Deny(Unauthorized)
  }

  /** `userOwnsComment`: only the comment's author passes. */
  function OwnsComment(t: Thread, mid: Id, cid: Id, user: UserId): (g: Guard)
    ensures g.Allow? <==>
      Comments.Resolves(t, mid, cid) &&
      var m := t.messages[Messages.Locate(t, mid).value];
      m.comments[Comments.LocateIn(m, cid).value].author == user
    ensures g.Deny? ==> g.error == (if Comments.Resolves(t, mid, cid) then Unauthorized else MissingTarget)
  {
    match Messages.Locate(t, mid)
    case None => Deny(MissingTarget)
    case Some(i) =>
      match Comments.LocateIn(t.messages[i], cid)
      case None => Deny(MissingTarget)
      case Some(j) => if t.messages[i].comments[j].author == user then Allow else Deny(Unauthorized)
  }

  /** The fields of a request body the controller reads; None is a field the
      body does not have. */
  datatype Body = Body(title: Option<string>, text: Option<string>, country: Option<string>, language: Option<string>)

  /** `newThread`: every one of title, text, country and language must be
      present in the body, or the request ends with MissingData; the caller
      becomes the author. The save then applies the schema's `required`
      checks, so an empty title, text or author ends with DBError. */
  function NewThread(body: Body, user: UserId, id: Id, now: Time, save: Save): (r: Result<Thread>)
    ensures r == Err(MissingData) <==>
      body.title.None? || body.text.None? || body.country.None? || body.language.None?
    ensures r.Ok? <==>
      && body.title.Some? && body.text.Some? && body.country.Some? && body.language.Some?
      && Required(body.title.value) && Required(body.text.value) && Required(user) && save.Saved?
    ensures r.Ok? ==>
      && r.value.title == body.title.value && r.value.text == body.text.value
      && r.value.country == body.country.value && r.value.language == body.language.value
      && r.value.author == user && r.value.id == id
      && r.value.time == now && r.value.updated == now
      && r.value.votes == NoVotes && r.value.messages == []
      && r.value.messagesNumber == 0 && r.value.commentsNumber == 0
    ensures r.Ok? ==> CountersMatch(r.value) && TimesOrdered(r.value) && DistinctIds(r.value)
  {
    if body.title.None? || body.text.None? || body.country.None? || body.language.None? then Err(MissingData)
    else if !Required(body.title.value) || !Required(body.text.value) || !Required(user) then Err(DBError)
    else if save.SaveFailed? then Err(DBError)
    else Ok(Thread(id, body.title.value, body.text.value, user, body.country.value, body.language.value,
                   now, now, NoVotes, [], 0, 0))
  }

  /** The title an edit handler passes on: the body's title when it is truthy. */
  function TitleArg(body: Body): (a: Option<string>)
    ensures Truthy(a) <==> Truthy(body.title)
    ensures Truthy(a) ==> a == body.title
  {
    if Truthy(body.title) then body.title else None
  }

  /** The text an edit handler passes on: the body's text, but only when the
      body's TITLE is truthy, so a text-only edit reaches the schema as no text. */
  function TextArg(body: Body): (a: Option<string>)
    ensures !Truthy(body.title) ==> !Truthy(a)
    ensures Truthy(body.title) ==> a == body.text
  {
    if body.text.Some? && Truthy(body.title) then body.text else None
  }

  /** `editThread` behind `userOwnsThread`. */
  function EditThread(t: Thread, user: UserId, body: Body, now: Time, save: Save): (r: Result<Thread>)
    ensures t.author != user ==> r == Err(Unauthorized)
    ensures t.author == user ==> r == Threads.Edit(t, TitleArg(body), TextArg(body), now, save)
  {
    match OwnsThread(t, user)
    case Deny(e) => Err(e)
    case Allow => Threads.Edit(t, TitleArg(body), TextArg(body), now, save)
  }

  /** As written, a body carrying only a new text leaves the thread's text as
      it was; only `updated` moves. */
  lemma TextOnlyEditIgnored(t: Thread, text: string, now: Time)
    ensures EditThread(t, t.author, Body(None, Some(text), None, None), now, Saved) == Ok(t.(updated := now))
  {
  }

  /** `removeThread` behind `userOwnsThread`: Ok(()) means the store deleted
      the whole aggregate; on any error the stored thread stays as it was. The
      deletion itself is the store's effect and is not modelled: the result
      only says whether the request got that far. */
  function RemoveThread(t: Thread, user: UserId, save: Save): (r: Result<()>)
    ensures r.Ok? <==> t.author == user && save.Saved?
    ensures r.Err? ==> r.error == (if t.author != user then Unauthorized else DBError)
  {
    if t.author != user then Err(Unauthorized)
    else if save.SaveFailed? then Err(DBError)
    else Ok(())
  }

  /** The thread the database holds after a request that saves the whole
      document: the saved result, or the thread as it was when the request failed. */
  function Stored(t: Thread, r: Result<Thread>): Thread {
    if r.Ok? then r.value else t
  }

  /** `removeMessage` behind `userOwnsMessage`: a missing message ends the
      request, a caller who is not its author is refused, and the author gets
      the schema removal. */
  function RemoveMessage(t: Thread, mid: Id, user: UserId, save: Save): (r: Result<Thread>)
    ensures Messages.Locate(t, mid).None? ==> r == Err(MissingTarget)
    ensures Messages.Locate(t, mid).Some? && t.messages[Messages.Locate(t, mid).value].author != user ==>
      r == Err(Unauthorized)
    ensures r.Ok? <==>
      Messages.Locate(t, mid).Some? && t.messages[Messages.Locate(t, mid).value].author == user && save.Saved?
    ensures r.Ok? ==>
      && (forall m :: m in r.value.messages <==> m in t.messages && m.id != mid)
      && r.value.messagesNumber == t.messagesNumber - 1
      && r.value.(messages := t.messages, messagesNumber := t.messagesNumber) == t
  {
    match OwnsMessage(t, mid, user)
    case Deny(e) => Err(e)
    case Allow => Threads.RemoveMessage(t, mid, save)
  }

  /** `removeComment` behind `userOwnsComment`: a comment that does not
      resolve ends the request, a caller who is not its author is refused, and
      the author gets the schema removal. */
  function RemoveComment(t: Thread, mid: Id, cid: Id, user: UserId, messageSave: Save, threadSave: Save)
    : (r: Result<Thread>)
    ensures !Comments.Resolves(t, mid, cid) ==> r == Err(MissingTarget)
    ensures Comments.Resolves(t, mid, cid) ==>
      var m := t.messages[Messages.Locate(t, mid).value];
      && (m.comments[Comments.LocateIn(m, cid).value].author != user ==> r == Err(Unauthorized))
      && (r.Ok? <==> m.comments[Comments.LocateIn(m, cid).value].author == user && messageSave.Saved? && threadSave.Saved?)
    ensures r.Ok? ==>
      var i := Messages.Locate(t, mid).value;
      OthersKept(t.messages, r.value.messages, i) &&
      var m := r.value.messages[i];
      && (forall c :: c in m.comments <==> c in t.messages[i].comments && c.id != cid)
      && m.commentsNumber == t.messages[i].commentsNumber - 1
      && r.value.(messages := t.messages) == t
  {
    match OwnsComment(t, mid, cid, user)
    case Deny(e) => Err(e)
    case Allow => Messages.RemoveComment(t, mid, cid, messageSave, threadSave)
  }

  /** A delete by anyone but the message's author stores nothing. */
  lemma ForeignMessageDeleteKeepsThread(t: Thread, mid: Id, user: UserId, save: Save)
    requires Messages.Locate(t, mid).Some? ==> t.messages[Messages.Locate(t, mid).value].author != user
    ensures Stored(t, RemoveMessage(t, mid, user, save)) == t
  {
  }

  /** A delete by anyone but the comment's author stores nothing. */
  lemma ForeignCommentDeleteKeepsThread(t: Thread, mid: Id, cid: Id, user: UserId, messageSave: Save, threadSave: Save)
    requires Comments.Resolves(t, mid, cid) ==>
      var m := t.messages[Messages.Locate(t, mid).value];
      m.comments[Comments.LocateIn(m, cid).value].author != user
    ensures Stored(t, RemoveComment(t, mid, cid, user, messageSave, threadSave)) == t
  {
  }

  /** The node a vote request addresses. */
  datatype Target = OnThread | OnMessage(mid: Id) | OnComment(mid: Id, cid: Id)

  /** The ledger key of a vote: the stored ID of the addressed node. The
      handlers read and write under the ID as the URL spells it instead (see
      `CastVoteAsWritten`); the two agree when the URL spells the stored ID. */
  function TargetId(t: Thread, target: Target): Id {
    match target
    case OnThread => t.id
    case OnMessage(mid) => mid
    case OnComment(_, cid) => cid
  }

  /** The addressed node's tally, when the lookups find it. */
  function TallyAt(t: Thread, target: Target): Option<Tally> {
    match target
    case OnThread => Some(t.votes)
    case OnMessage(mid) =>
      (match Messages.Locate(t, mid)
       case None => None
       case Some(i) => Some(t.messages[i].votes))
    case OnComment(mid, cid) =>
      if !Comments.Resolves(t, mid, cid) then None
      else
        var m := t.messages[Messages.Locate(t, mid).value];
        Some(m.comments[Comments.LocateIn(m, cid).value].votes)
  }

  /** One outcome per level of the nested document. */
  datatype Saves = Saves(comment: Save, message: Save, thread: Save)

  /** The tally transition on the addressed node, through the schema method for its level. */
  function ApplyVote(t: Thread, target: Target, prev: PreviousVote, dir: Direction, saves: Saves): Result<Thread> {
    match target
    case OnThread => Threads.Vote(t, prev, dir, saves.thread)
    case OnMessage(mid) => Messages.Vote(t, mid, prev, dir, saves.message, saves.thread)
    case OnComment(mid, cid) => Comments.Vote(t, mid, cid, prev, dir, saves.comment, saves.message, saves.thread)
  }

  /** A first-match lookup still finds position i once only position i changed and kept its ID. */
  lemma LocateStable(t: Thread, t': Thread, mid: Id, i: nat)
    requires Messages.Locate(t, mid) == Some(i)
    requires OthersKept(t.messages, t'.messages, i) && t'.messages[i].id == mid
    ensures Messages.Locate(t', mid) == Some(i)
  {
    match Messages.Locate(t', mid)
    case None =>
    case Some(k) => assert !(k < i) && !(i < k);
  }

  lemma LocateInStable(m: Message, m': Message, cid: Id, j: nat)
    requires Comments.LocateIn(m, cid) == Some(j)
    requires OthersKept(m.comments, m'.comments, j) && m'.comments[j].id == cid
    ensures Comments.LocateIn(m', cid) == Some(j)
  {
    match Comments.LocateIn(m', cid)
    case None =>
    case Some(k) => assert !(k < j) && !(j < k);
  }

  /** The vote reaches exactly the addressed node: it must be found, and its
      tally afterwards is the transition of its tally before. */
  lemma {:induction false} ApplyVoteMovesTally(t: Thread, target: Target, prev: PreviousVote, dir: Direction, saves: Saves)
    ensures var r := ApplyVote(t, target, prev, dir, saves);
      && (r.Err? ==> r.error == (if TallyAt(t, target).None? then MissingTarget else DBError))
      && (r.Ok? ==> TallyAt(t, target).Some? &&
                    TallyAt(r.value, target) == Some(Cast(TallyAt(t, target).value, prev, dir)))
  {
    var r := ApplyVote(t, target, prev, dir, saves);
    match target
    case OnThread =>
    case OnMessage(mid) =>
      if r.Ok? {
        LocateStable(t, r.value, mid, Messages.Locate(t, mid).value);
      }
    case OnComment(mid, cid) =>
      if r.Ok? {
        var i := Messages.Locate(t, mid).value;
        LocateStable(t, r.value, mid, i);
        LocateInStable(t.messages[i], r.value.messages[i], cid, Comments.LocateIn(t.messages[i], cid).value);
      }
  }

  /** The body of a vote response. */
  datatype VoteReply = VoteReply(upvotes: int, downvotes: int, voted: int)

  /** What a vote request leaves behind: the response, the stored thread, the ledger. */
  datatype VoteOutcome = VoteOutcome(reply: Result<VoteReply>, stored: Thread, ledger: VoteLedger)

  /** A vote request: the `checkVote` guard reads the previous record (a
      store error ends the request and nothing changes), the
      schema method applies the transition and saves, the response carries
      the node's new tallies and `voted` = +1 or -1 whatever the previous vote
      was, and only then is the ledger written (its failure only logged). */
  function CastVote(t: Thread, target: Target, dir: Direction, user: UserId, l: VoteLedger,
                    read: Read, saves: Saves, ledgerSave: Save): (r: VoteOutcome)
    ensures read.ReadFailed? ==> r.reply == Err(DBError)
    ensures r.reply.Err? ==> r.stored == t && r.ledger == l
    ensures r.reply.Err? ==>
      r.reply.error == (if read.Answered? && TallyAt(t, target).None? then MissingTarget else DBError)
    ensures r.reply.Ok? ==>
      var prev := CheckVote(l, user, TargetId(t, target));
      && read.Answered?
      && ApplyVote(t, target, prev, dir, saves) == Ok(r.stored)
      && TallyAt(t, target).Some?
      && TallyAt(r.stored, target) == Some(Cast(TallyAt(t, target).value, prev, dir))
      && r.reply.value.upvotes == TallyAt(r.stored, target).value.upvotes
      && r.reply.value.downvotes == TallyAt(r.stored, target).value.downvotes
      && r.reply.value.voted == dir.Value()
    ensures r.reply.Ok? && ledgerSave.Saved? ==>
      r.ledger == l[(user, TargetId(t, target)) := dir.Value()]
    ensures r.reply.Ok? && ledgerSave.Saved? ==>
      CheckVote(r.ledger, user, TargetId(t, target)) == Some(dir.Value())
    ensures r.reply.Ok? && ledgerSave.SaveFailed? ==> r.ledger == l
  {
    var id := TargetId(t, target);
    var prev := CheckVote(l, user, id);
    ApplyVoteMovesTally(t, target, prev, dir, saves);
    if read.ReadFailed? then VoteOutcome(Err(DBError), t, l)
    else
      match ApplyVote(t, target, prev, dir, saves)
      case Err(e) => VoteOutcome(Err(e), t, l)
      case Ok(t') =>
        var tally := TallyAt(t', target).value;
        var l' := if ledgerSave.Saved? then StoreUserVote(l, user, id, prev, dir.Value()) else l;
        VoteOutcome(Ok(VoteReply(tally.upvotes, tally.downvotes, dir.Value())), t', l')
  }

  /** The key a first vote is inserted under: the loaded thread's ID for a
      thread vote, the URL text for a message or comment vote. */
  function InsertKey(t: Thread, target: Target, urlId: Id): Id {
    if target.OnThread? then t.id else urlId
  }

  /** A vote request keyed as the handlers key it. `checkVote` reads under the
      ID as the URL spells it (`urlId`). A first vote is inserted under
      `InsertKey`; a changed vote rewrites the record that was read. The
      lookups that reach the node cast the URL text to an object ID, so a
      spelling other than the stored one still finds it: `target` holds the
      IDs the lookups resolve to. */
  function CastVoteAsWritten(t: Thread, target: Target, dir: Direction, user: UserId, l: VoteLedger,
                             urlId: Id, read: Read, saves: Saves, ledgerSave: Save): (r: VoteOutcome)
    // spelled as stored, this is the request `CastVote` models
    ensures urlId == TargetId(t, target) ==>
      r == CastVote(t, target, dir, user, l, read, saves, ledgerSave)
    ensures r.reply.Err? ==> r.stored == t && r.ledger == l
    ensures read.ReadFailed? ==> r.reply == Err(DBError)
    // the tally moves from whatever was recorded under the URL text
    ensures r.reply.Ok? ==>
      && read.Answered?
      && ApplyVote(t, target, CheckVote(l, user, urlId), dir, saves) == Ok(r.stored)
      && TallyAt(t, target).Some?
      && TallyAt(r.stored, target) == Some(Cast(TallyAt(t, target).value, CheckVote(l, user, urlId), dir))
      && r.reply.value.upvotes == TallyAt(r.stored, target).value.upvotes
      && r.reply.value.downvotes == TallyAt(r.stored, target).value.downvotes
      && r.reply.value.voted == dir.Value()
    // a first vote is inserted under `InsertKey` ...
    ensures r.reply.Ok? && ledgerSave.Saved? && CheckVote(l, user, urlId).None? ==>
      r.ledger == l[(user, InsertKey(t, target, urlId)) := dir.Value()]
    // ... a recorded one is rewritten under the URL text it was read under
    ensures r.reply.Ok? && ledgerSave.Saved? && CheckVote(l, user, urlId).Some? ==>
      r.ledger == l[(user, urlId) := dir.Value()]
    ensures r.reply.Ok? && ledgerSave.SaveFailed? ==> r.ledger == l
  {
    var prev := CheckVote(l, user, urlId);
    var key := if prev.None? then InsertKey(t, target, urlId) else urlId;
    ApplyVoteMovesTally(t, target, prev, dir, saves);
    if read.ReadFailed? then VoteOutcome(Err(DBError), t, l)
    else
      match ApplyVote(t, target, prev, dir, saves)
      case Err(e) => VoteOutcome(Err(e), t, l)
      case Ok(t') =>
        var tally := TallyAt(t', target).value;
        var l' := if ledgerSave.Saved? then StoreUserVote(l, user, key, prev, dir.Value()) else l;
        VoteOutcome(Ok(VoteReply(tally.upvotes, tally.downvotes, dir.Value())), t', l')
  }

  /** A user who has upvoted thread "ab" upvotes it again through the URL
      spelling "AB", which the ID lookup accepts for the same thread. The read
      under "AB" finds no record, so the upvote counts a second time, and the
      thread's tally no longer counts its voters. Spelled as stored, the
      repeated upvote changes nothing. */
  lemma RespelledThreadIdCountsTwice()
    ensures
      var t := Thread("ab", "Hi", "body", "A", "it", "it", 1, 1, Tally(1, 0), [], 0, 0);
      var l := map[("u", "ab") := 1];
      var saves := Saves(Saved, Saved, Saved);
      var asWritten := CastVoteAsWritten(t, OnThread, Up, "u", l, "AB", Answered, saves, Saved);
      var asStored := CastVote(t, OnThread, Up, "u", l, Answered, saves, Saved);
      && TallyMatches(t.votes, l, t.id)
      && asWritten.reply == Ok(VoteReply(2, 0, 1))
      && !TallyMatches(asWritten.stored.votes, asWritten.ledger, t.id)
      && asStored.reply == Ok(VoteReply(1, 0, 1))
      && TallyMatches(asStored.stored.votes, asStored.ledger, t.id)
  {
    var t := Thread("ab", "Hi", "body", "A", "it", "it", 1, 1, Tally(1, 0), [], 0, 0);
    var l := map[("u", "ab") := 1];
    var saves := Saves(Saved, Saved, Saved);
    assert Voters(l, "ab", 1) == {"u"};
    assert Voters(l, "ab", -1) == {};
    assert CheckVote(l, "u", "AB") == None;
    assert Cast(Tally(1, 0), None, Up) == Tally(2, 0);
    var asWritten := CastVoteAsWritten(t, OnThread, Up, "u", l, "AB", Answered, saves, Saved);
    assert asWritten.stored.votes == Tally(2, 0);
    assert asWritten.ledger == l;
    assert CheckVote(l, "u", "ab") == Some(1);
    assert Cast(Tally(1, 0), Some(1), Up) == Tally(1, 0);
    var asStored := CastVote(t, OnThread, Up, "u", l, Answered, saves, Saved);
    assert asStored.stored.votes == Tally(1, 0);
    assert asStored.ledger == l;
  }
}

=== FILE: comments.dfy ===
/** Comment-level operations (schemas/comment.js), reached from the thread by
    message ID and comment ID as the delegators of schemas/thread.js and
    schemas/message.js do. Each saves the comment, the message, then the
    thread. The message-level save outcome is never consulted: its callback
    tests the comment-level error instead of its own, so a failed message save
    goes on to the thread save. */
module Comments {
  import opened Common
  import opened Votes
  import opened Content
  import Messages

  /** `message.comments.id(cid)`: the position of the comment, if any. */
  function LocateIn(m: Message, cid: Id): (r: Option<nat>)
    ensures r.Some? ==> r.value < |m.comments| && m.comments[r.value].id == cid
    ensures r.Some? ==> forall k :: 0 <= k < r.value ==> m.comments[k].id != cid
    ensures r.None? ==> forall k :: 0 <= k < |m.comments| ==> m.comments[k].id != cid
  {
    IndexOfId(m.comments, CommentId, cid)
  }

  /** Both lookups succeed: the message by `mid`, then the comment by `cid` in it. */
  predicate Resolves(t: Thread, mid: Id, cid: Id) {
    && Messages.Locate(t, mid).Some?
    && LocateIn(t.messages[Messages.Locate(t, mid).value], cid).Some?
  }

  /** `edit(text, thread, message)`: replace the text only by a truthy value;
      then the message's and the thread's `updated` each move to the later of
      their value and `now`. The comment itself keeps no edit time. */
  function Edit(t: Thread, mid: Id, cid: Id, text: Option<string>, now: Time,
                commentSave: Save, messageSave: Save, threadSave: Save)
    : (r: Result<Thread>)
    ensures r.Ok? <==> Resolves(t, mid, cid) && commentSave.Saved? && threadSave.Saved?
    ensures r.Err? ==> r.error == (if Resolves(t, mid, cid) then DBError else MissingTarget)
    ensures r.Ok? ==>
      var i := Messages.Locate(t, mid).value;
      var j := LocateIn(t.messages[i], cid).value;
      OthersKept(t.messages, r.value.messages, i) &&
      var m := t.messages[i];
      var m' := r.value.messages[i];
      OthersKept(m.comments, m'.comments, j)
      && (Truthy(text) ==> m'.comments[j].text == text.value)
      && (!Truthy(text) ==> m'.comments[j].text == m.comments[j].text)
      && m'.comments[j].(text := m.comments[j].text) == m.comments[j]
      && m'.updated >= m.updated && m'.updated >= now
      && (m'.updated == m.updated || m'.updated == now)
      && m'.(comments := m.comments, updated := m.updated) == m
    ensures r.Ok? ==> r.value.updated >= t.updated && r.value.updated >= now
    ensures r.Ok? ==> r.value.updated == t.updated || r.value.updated == now
    ensures r.Ok? ==> r.value.(messages := t.messages, updated := t.updated) == t
  {
    match Messages.Locate(t, mid)
    case None => Err(MissingTarget)
    case Some(i) =>
      var m := t.messages[i];
      match LocateIn(m, cid)
      case None => Err(MissingTarget)
      case Some(j) =>
        var c := m.comments[j];
        var c' := c.(text := UpdatedField(c.text, text));
        if commentSave.SaveFailed? then Err(DBError)
        else
          var m' := m.(comments := m.comments[j := c'], updated := Later(m.updated, now));
          if threadSave.SaveFailed? then Err(DBError)
          else Ok(t.(messages := t.messages[i := m'], updated := Later(t.updated, now)))
  }

  /** `upvote` / `downvote`: the shared transition on the comment's own tally;
      the message and the thread are only re-saved, their tallies and times
      unchanged. */
  function Vote(t: Thread, mid: Id, cid: Id, prev: PreviousVote, dir: Direction,
                commentSave: Save, messageSave: Save, threadSave: Save)
    : (r: Result<Thread>)
    ensures r.Ok? <==> Resolves(t, mid, cid) && commentSave.Saved? && threadSave.Saved?
    ensures r.Err? ==> r.error == (if Resolves(t, mid, cid) then DBError else MissingTarget)
    ensures r.Ok? ==>
      var i := Messages.Locate(t, mid).value;
      var j := LocateIn(t.messages[i], cid).value;
      OthersKept(t.messages, r.value.messages, i) &&
      var m := t.messages[i];
      var m' := r.value.messages[i];
      OthersKept(m.comments, m'.comments, j)
      && m'.comments[j].votes == Cast(m.comments[j].votes, prev, dir)
      && m'.comments[j].(votes := m.comments[j].votes) == m.comments[j]
      && m'.(comments := m.comments) == m
    ensures r.Ok? ==> r.value.(messages := t.messages) == t
  {
    match Messages.Locate(t, mid)
    case None => Err(MissingTarget)
    case Some(i) =>
      var m := t.messages[i];
      match LocateIn(m, cid)
      case None => Err(MissingTarget)
      case Some(j) =>
        var c := m.comments[j];
        if commentSave.SaveFailed? then Err(DBError)
        else if threadSave.SaveFailed? then Err(DBError)
        else
          var m' := m.(comments := m.comments[j := c.(votes := Cast(c.votes, prev, dir))]);
          Ok(t.(messages := t.messages[i := m']))
  }

  /** As written, the outcome of the message-level save makes no difference. */
  lemma MessageSaveIgnored(t: Thread, mid: Id, cid: Id, text: Option<string>, prev: PreviousVote,
                           dir: Direction, now: Time, commentSave: Save, threadSave: Save)
    ensures Edit(t, mid, cid, text, now, commentSave, SaveFailed, threadSave)
         == Edit(t, mid, cid, text, now, commentSave, Saved, threadSave)
    ensures Vote(t, mid, cid, prev, dir, commentSave, SaveFailed, threadSave)
         == Vote(t, mid, cid, prev, dir, commentSave, Saved, threadSave)
  {
  }
}

=== FILE: common.dfy ===
/** Shared vocabulary of the board model: identifiers, time, optional values,
    storage outcomes and the errors a request can end with. */
module Common {

  /** A content ID (a document ObjectId in text form). IDs are unique across
      threads, messages and comments, so one ID space serves the vote ledger. */
  type Id = string

  /** An external user ID, issued by the identity service. */
  type UserId = string

  /** A timestamp. The clock is never read by the model: `now` is a parameter. */
  type Time = nat

  datatype Option<+T> = None | Some(value: T)

  /** Outcome of one `save` call on one level of the nested document. */
  datatype Save = Saved | SaveFailed

  /** Outcome of one query to a store: it answered, or it reported an error. */
  datatype Read = Answered | ReadFailed

  /** The errors a request can end with. */
  datatype BoardError =
    | DBError        // a storage call reported an error
    | MissingData    // a required body field is absent
    | Unauthorized   // the caller does not own the node
    | MissingTarget  // a lookup by ID found nothing and the source then dereferences null

  datatype Result<+T> = Ok(value: T) | Err(error: BoardError)

  /** JavaScript truthiness of an optional string argument: an absent value,
      `false` and the empty string are all falsy. */
  predicate Truthy(arg: Option<string>) {
    arg.Some? && arg.value != ""
  }

  /** Mongoose's `required` check on a String path: the empty string fails
      it, and the `save` that meets it reports an error. */
  predicate Required(s: string) {
    s != ""
  }

  /** `arg ? arg : current`, the partial-update rule shared by every `edit`. */
  function UpdatedField(current: string, arg: Option<string>): string {
    if Truthy(arg) then arg.value else current
  }

  /** `current <= t ? t : current`, how a cascade moves an ancestor's `updated`. */
  function Later(current: Time, t: Time): Time {
    if current <= t then t else current
  }
}

=== FILE: content.dfy ===
/** The three-level content aggregate: a thread embeds its messages, a message
    embeds its comments (schemas/thread.js, schemas/message.js, schemas/comment.js).
    The thread is the unit of storage. */
module Content {
  import opened Common
  import opened Votes

  /** A leaf node. The schema has no `updated` path, so an edit time assigned
      to a comment is never stored. */
  datatype Comment = Comment(id: Id, text: string, author: UserId, time: Time, votes: Tally)

  datatype Message = Message(
    id: Id, text: string, author: UserId, time: Time, updated: Time,
    votes: Tally, comments: seq<Comment>, commentsNumber: int)

  /** The root document. `country` and `language` are the tags the list query
      filters on; the counters are plain numbers the operations adjust. */
  datatype Thread = Thread(
    id: Id, title: string, text: string, author: UserId,
    country: string, language: string, time: Time, updated: Time,
    votes: Tally, messages: seq<Message>, messagesNumber: int, commentsNumber: int)

  function MessageId(m: Message): Id { m.id }

  function CommentId(c: Comment): Id { c.id }

  /** `array.id(id)`: the position of the first element carrying that ID. */
  function IndexOfId<T>(s: seq<T>, idOf: T -> Id, id: Id): (r: Option<nat>)
    ensures r.Some? ==> r.value < |s| && idOf(s[r.value]) == id
    ensures r.Some? ==> forall k :: 0 <= k < r.value ==> idOf(s[k]) != id
    ensures r.None? ==> forall k :: 0 <= k < |s| ==> idOf(s[k]) != id
  {
    if |s| == 0 then None
    else if idOf(s[0]) == id then Some(0)
    else
      match IndexOfId(s[1..], idOf, id)
      case None => None
      case Some(k) => Some(k + 1)
  }

  /** How many elements carry the ID. */
  function Occurrences<T>(s: seq<T>, idOf: T -> Id, id: Id): nat {
    if |s| == 0 then 0
    else (if idOf(s[0]) == id then 1 else 0) + Occurrences(s[1..], idOf, id)
  }

  /** `array.pull(id)`: every element carrying the ID removed, the rest kept. */
  function Pull<T(!new)>(s: seq<T>, idOf: T -> Id, id: Id): (r: seq<T>)
    ensures |r| == |s| - Occurrences(s, idOf, id)
    ensures (forall k :: 0 <= k < |s| ==> idOf(s[k]) != id) ==> r == s
  {
    if |s| == 0 then []
    else if idOf(s[0]) == id then Pull(s[1..], idOf, id)
    else [s[0]] + Pull(s[1..], idOf, id)
  }

  /** Pulling keeps exactly the elements that do not carry the ID. */
  lemma {:induction false} PullMembers<T(!new)>(s: seq<T>, idOf: T -> Id, id: Id)
    ensures forall x :: x in Pull(s, idOf, id) <==> x in s && idOf(x) != id
  {
    if |s| > 0 {
      PullMembers(s[1..], idOf, id);
      assert s == [s[0]] + s[1..];
    }
  }

  /** When exactly one element carries the ID, pulling it splices out that element. */
  lemma {:induction false} PullSingle<T(!new)>(s: seq<T>, idOf: T -> Id, id: Id, i: nat)
    requires i < |s| && idOf(s[i]) == id
    requires forall k :: 0 <= k < |s| && k != i ==> idOf(s[k]) != id
    ensures Pull(s, idOf, id) == s[..i] + s[i + 1..]
  {
    var tail := s[1..];
    if i == 0 {
      forall k | 0 <= k < |tail| ensures idOf(tail[k]) != id {
        assert tail[k] == s[k + 1];
      }
      assert Pull(s, idOf, id) == Pull(tail, idOf, id);
      assert s[..0] + s[1..] == tail;
    } else {
      forall k | 0 <= k < |tail| && k != i - 1 ensures idOf(tail[k]) != id {
        assert tail[k] == s[k + 1];
      }
      PullSingle(tail, idOf, id, i - 1);
      assert Pull(s, idOf, id) == [s[0]] + Pull(tail, idOf, id);
      assert [s[0]] + (tail[..i - 1] + tail[i..]) == s[..i] + s[i + 1..];
    }
  }

  /** `after` keeps every element of `before` except possibly the one at `i`. */
  predicate OthersKept<T(==)>(before: seq<T>, after: seq<T>, i: nat) {
    |after| == |before| && forall k :: 0 <= k < |before| && k != i ==> after[k] == before[k]
  }

  /** Total number of comments embedded in a sequence of messages. */
  function TotalComments(ms: seq<Message>): nat {
    if |ms| == 0 then 0 else TotalComments(ms[..|ms| - 1]) + |ms[|ms| - 1].comments|
  }

  /** Counter invariant: each counter equals what it counts. */
  predicate CountersMatch(t: Thread) {
    && t.messagesNumber == |t.messages|
    && t.commentsNumber == TotalComments(t.messages)
    && forall i :: 0 <= i < |t.messages| ==> t.messages[i].commentsNumber == |t.messages[i].comments|
  }

  /** Timestamp invariant: every ancestor's `updated` is at least
      the creation and update times below it. */
  predicate TimesOrdered(t: Thread) {
    && t.time <= t.updated
    && forall i :: 0 <= i < |t.messages| ==> MessageTimesOrdered(t.messages[i], t.updated)
  }

  predicate MessageTimesOrdered(m: Message, bound: Time) {
    && m.time <= m.updated <= bound
    && forall j :: 0 <= j < |m.comments| ==> m.comments[j].time <= m.updated
  }

  /** The IDs inside one message's subtree. */
  function SubtreeIds(m: Message): set<Id> {
    {m.id} + set c | c in m.comments :: c.id
  }

  predicate CommentIdsDistinct(m: Message) {
    && (forall j :: 0 <= j < |m.comments| ==> m.comments[j].id != m.id)
    && (forall j, j' :: 0 <= j < j' < |m.comments| ==> m.comments[j].id != m.comments[j'].id)
  }

  /** No ID occurs twice in a thread's tree (fresh document IDs guarantee this). */
  predicate DistinctIds(t: Thread) {
    && (forall i :: 0 <= i < |t.messages| ==> t.id !in SubtreeIds(t.messages[i]))
    && (forall i, i' :: 0 <= i < i' < |t.messages| ==> SubtreeIds(t.messages[i]) !! SubtreeIds(t.messages[i']))
    && (forall i :: 0 <= i < |t.messages| ==> CommentIdsDistinct(t.messages[i]))
  }

  /** Appending a message adds its comments to the total. */
  lemma TotalCommentsAppend(ms: seq<Message>, m: Message)
    ensures TotalComments(ms + [m]) == TotalComments(ms) + |m.comments|
  {
    assert (ms + [m])[..|ms|] == ms;
  }

  /** Replacing one message changes the total by the difference in its comments. */
  lemma {:induction false} TotalCommentsReplace(ms: seq<Message>, i: nat, m: Message)
    requires i < |ms|
    ensures TotalComments(ms[i := m]) == TotalComments(ms) - |ms[i].comments| + |m.comments|
    decreases |ms|
  {
    var n := |ms| - 1;
    if i == n {
      assert ms[i := m][..n] == ms[..n];
    } else {
      TotalCommentsReplace(ms[..n], i, m);
      assert ms[i := m][..n] == ms[..n][i := m];
    }
  }

  /** The total over a concatenation is the sum of the totals. */
  lemma {:induction false} TotalCommentsConcat(a: seq<Message>, b: seq<Message>)
    ensures TotalComments(a + b) == TotalComments(a) + TotalComments(b)
    decreases |b|
  {
    if |b| == 0 {
      assert a + b == a;
    } else {
      var n := |b| - 1;
      TotalCommentsConcat(a, b[..n]);
      assert (a + b)[..|a + b| - 1] == a + b[..n];
    }
  }
}

=== FILE: invariants.dfy ===
/** The thread invariants over a whole thread and the operations that keep
    (or, as written, break) them: vote tallies agree with the ledger, child
    counters count their children, ancestor timestamps bound their
    descendants'. */
module Invariants {
  import opened Common
  import opened Votes
  import opened Content
  import opened Ledger
  import Threads
  import Messages
  import Comments
  import Board

  /** Every node of the message's subtree has a tally matching the ledger. */
  predicate MessageAgrees(m: Message, l: VoteLedger) {
    && TallyMatches(m.votes, l, m.id)
    && forall j :: 0 <= j < |m.comments| ==> TallyMatches(m.comments[j].votes, l, m.comments[j].id)
  }

  /** Every node of the thread has a tally matching the ledger. */
  predicate LedgerAgrees(t: Thread, l: VoteLedger) {
    && TallyMatches(t.votes, l, t.id)
    && forall i :: 0 <= i < |t.messages| ==> MessageAgrees(t.messages[i], l)
  }

  lemma InSubtree(m: Message)
    ensures m.id in SubtreeIds(m)
    ensures forall j :: 0 <= j < |m.comments| ==> m.comments[j].id in SubtreeIds(m)
  {
    forall j | 0 <= j < |m.comments| ensures m.comments[j].id in SubtreeIds(m) {
      assert m.comments[j] in m.comments;
    }
  }

  /** With distinct IDs, an ID in message i's subtree is nowhere else in the thread. */
  lemma {:induction false} ElsewhereDiffers(t: Thread, i: nat, c: Id)
    requires DistinctIds(t) && i < |t.messages| && c in SubtreeIds(t.messages[i])
    ensures t.id != c
    ensures forall k :: 0 <= k < |t.messages| && k != i ==> c !in SubtreeIds(t.messages[k])
  {
    forall k | 0 <= k < |t.messages| && k != i ensures c !in SubtreeIds(t.messages[k]) {
      if k < i {
        assert SubtreeIds(t.messages[k]) !! SubtreeIds(t.messages[i]);
      } else {
        assert SubtreeIds(t.messages[i]) !! SubtreeIds(t.messages[k]);
      }
    }
  }

  /** A tally keeps matching at an ID whose voters did not move. */
  lemma MatchCarries(x: Tally, l: VoteLedger, l': VoteLedger, id: Id)
    requires TallyMatches(x, l, id)
    requires forall sign :: Voters(l', id, sign) == Voters(l, id, sign)
    ensures TallyMatches(x, l', id)
  {
    assert Voters(l', id, 1) == Voters(l, id, 1);
    assert Voters(l', id, -1) == Voters(l, id, -1);
  }

  /** A message none of whose IDs is `c` keeps agreeing when only `c`'s voters moved. */
  lemma MessageAgreementCarries(m: Message, l: VoteLedger, l': VoteLedger, c: Id)
    requires MessageAgrees(m, l) && c !in SubtreeIds(m)
    requires forall other, sign :: other != c ==> Voters(l', other, sign) == Voters(l, other, sign)
    ensures MessageAgrees(m, l')
  {
    InSubtree(m);
    MatchCarries(m.votes, l, l', m.id);
    forall j | 0 <= j < |m.comments| ensures TallyMatches(m.comments[j].votes, l', m.comments[j].id) {
      MatchCarries(m.comments[j].votes, l, l', m.comments[j].id);
    }
  }

  /** Only the voters at `c` moved between the two ledgers. */
  ghost predicate MovedOnlyAt(l: VoteLedger, l': VoteLedger, c: Id) {
    forall other, sign :: other != c ==> Voters(l', other, sign) == Voters(l, other, sign)
  }

  /** A vote on the thread's own tally keeps the whole thread in agreement. */
  lemma ThreadVoteAgrees(t: Thread, t': Thread, l: VoteLedger, l': VoteLedger)
    requires DistinctIds(t) && LedgerAgrees(t, l)
    requires t'.(votes := t.votes) == t
    requires TallyMatches(t'.votes, l', t.id) && MovedOnlyAt(l, l', t.id)
    ensures LedgerAgrees(t', l')
  {
    forall k | 0 <= k < |t'.messages| ensures MessageAgrees(t'.messages[k], l') {
      MessageAgreementCarries(t.messages[k], l, l', t.id);
    }
  }

  /** A vote on message i's own tally keeps the whole thread in agreement. */
  lemma MessageVoteAgrees(t: Thread, t': Thread, i: nat, l: VoteLedger, l': VoteLedger)
    requires DistinctIds(t) && LedgerAgrees(t, l) && i < |t.messages|
    requires OthersKept(t.messages, t'.messages, i)
    requires t'.messages[i].(votes := t.messages[i].votes) == t.messages[i]
    requires t'.(messages := t.messages) == t
    requires TallyMatches(t'.messages[i].votes, l', t.messages[i].id)
    requires MovedOnlyAt(l, l', t.messages[i].id)
    ensures LedgerAgrees(t', l')
  {
    var m := t.messages[i];
    InSubtree(m);
    ElsewhereDiffers(t, i, m.id);
    MatchCarries(t'.votes, l, l', t.id);
    forall k | 0 <= k < |t'.messages| ensures MessageAgrees(t'.messages[k], l') {
      if k != i {
        MessageAgreementCarries(t.messages[k], l, l', m.id);
      } else {
        forall j | 0 <= j < |m.comments|
          ensures TallyMatches(t'.messages[i].comments[j].votes, l', m.comments[j].id)
        {
          MatchCarries(m.comments[j].votes, l, l', m.comments[j].id);
        }
      }
    }
  }

  /** A vote on comment j of message i keeps the whole thread in agreement. */
  lemma CommentVoteAgrees(t: Thread, t': Thread, i: nat, j: nat, l: VoteLedger, l': VoteLedger)
    requires DistinctIds(t) && LedgerAgrees(t, l) && i < |t.messages| && j < |t.messages[i].comments|
    requires OthersKept(t.messages, t'.messages, i)
    requires OthersKept(t.messages[i].comments, t'.messages[i].comments, j)
    requires t'.messages[i].comments[j].(votes := t.messages[i].comments[j].votes) == t.messages[i].comments[j]
    requires t'.messages[i].(comments := t.messages[i].comments) == t.messages[i]
    requires t'.(messages := t.messages) == t
    requires TallyMatches(t'.messages[i].comments[j].votes, l', t.messages[i].comments[j].id)
    requires MovedOnlyAt(l, l', t.messages[i].comments[j].id)
    ensures LedgerAgrees(t', l')
  {
    var m, m' := t.messages[i], t'.messages[i];
    var c := m.comments[j].id;
    InSubtree(m);
    ElsewhereDiffers(t, i, c);
    assert CommentIdsDistinct(m);
    MatchCarries(t'.votes, l, l', t.id);
    MatchCarries(m.votes, l, l', m.id);
    forall j' | 0 <= j' < |m.comments| && j' != j
      ensures TallyMatches(m'.comments[j'].votes, l', m'.comments[j'].id)
    {
      MatchCarries(m.comments[j'].votes, l, l', m.comments[j'].id);
    }
    forall k | 0 <= k < |t'.messages| && k != i ensures MessageAgrees(t'.messages[k], l') {
      MessageAgreementCarries(t.messages[k], l, l', c);
    }
  }

  /** The single-vote invariant over a whole thread: when every tally matches
      the ledger before a vote request and the ledger write goes through,
      every tally matches the ledger afterwards. A failed request changes
      neither side. */
  lemma {:induction false} VoteKeepsLedgerAgreement(t: Thread, target: Board.Target, dir: Direction, user: UserId,
                                                    l: VoteLedger, read: Read, saves: Board.Saves)
    requires DistinctIds(t) && WellFormed(l) && LedgerAgrees(t, l)
    ensures var r := Board.CastVote(t, target, dir, user, l, read, saves, Saved);
      WellFormed(r.ledger) && LedgerAgrees(r.stored, r.ledger)
  {
    var r := Board.CastVote(t, target, dir, user, l, read, saves, Saved);
    var c := Board.TargetId(t, target);
    var prev := CheckVote(l, user, c);
    var applied := Board.ApplyVote(t, target, prev, dir, saves);
    if read.Answered? && applied.Ok? {
      var t' := applied.value;
      var l' := StoreUserVote(l, user, c, prev, dir.Value());
      assert r.stored == t' && r.ledger == l';
      match target {
        case OnThread =>
          VoteKeepsTallyMatched(t.votes, l, user, c, dir);
          ThreadVoteAgrees(t, t', l, l');
        case OnMessage(mid) =>
          var i := Messages.Locate(t, mid).value;
          VoteKeepsTallyMatched(t.messages[i].votes, l, user, c, dir);
          MessageVoteAgrees(t, t', i, l, l');
        case OnComment(mid, cid) =>
          var i := Messages.Locate(t, mid).value;
          var j := Comments.LocateIn(t.messages[i], cid).value;
          VoteKeepsTallyMatched(t.messages[i].comments[j].votes, l, user, c, dir);
          CommentVoteAgrees(t, t', i, j, l, l');
      }
    }
  }

  /** A fresh thread agrees with a ledger that holds no entry for its ID. */
  lemma NewThreadAgrees(t: Thread, l: VoteLedger)
    requires t.votes == NoVotes && t.messages == []
    requires forall k :: k in l ==> k.1 != t.id
    ensures LedgerAgrees(t, l)
  {
    assert Voters(l, t.id, 1) == {};
    assert Voters(l, t.id, -1) == {};
  }
}

=== FILE: ledger.dfy ===
/** The vote ledger (controllers/board.js `checkVote` and `storeUserVote`,
    records shaped as in schemas/user_vote.js): one vote value per
    (user, content) pair, and how it keeps every tally equal to a count of
    ledger entries. */
module Ledger {
  import opened Common
  import opened Votes

  /** The ledger as a map from (user, content) to the recorded vote. */
  type VoteLedger = map<(UserId, Id), int>

  /** The ledger only ever records +1 or -1. */
  predicate WellFormed(l: VoteLedger) {
    forall k :: k in l ==> IsLedgerValue(l[k])
  }

  /** `checkVote`: the caller's previous record for the content, or none. */
  function CheckVote(l: VoteLedger, user: UserId, content: Id): (r: PreviousVote)
    ensures r.None? <==> (user, content) !in l
    ensures r.Some? ==> r.value == l[(user, content)]
  {
    if (user, content) in l then Some(l[(user, content)]) else None
  }

  /** `storeUserVote`: insert when there was no previous record, overwrite a
      previous record that differs, leave an equal one alone. */
  function StoreUserVote(l: VoteLedger, user: UserId, content: Id, prev: PreviousVote, v: int)
    : (r: VoteLedger)
    // with the record `checkVote` found, the pair afterwards maps to v
    ensures prev == CheckVote(l, user, content) ==> r == l[(user, content) := v]
    ensures prev == CheckVote(l, user, content) ==> CheckVote(r, user, content) == Some(v)
    // no other pair is touched
    ensures forall k :: k != (user, content) ==> (k in r <==> k in l)
    ensures forall k :: k in l && k != (user, content) ==> r[k] == l[k]
  {
    if prev.None? then l[(user, content) := v]
    else if prev.value != v then l[(user, content) := v]
    else l
  }

  /** The users whose ledger entry for `content` has the given sign. */
  function Voters(l: VoteLedger, content: Id, sign: int): set<UserId> {
    set k | k in l && k.1 == content && l[k] == sign :: k.0
  }

  /** Vote invariant for one content node: each tally counts the
      users whose ledger entry has that sign. */
  predicate TallyMatches(t: Tally, l: VoteLedger, content: Id) {
    t.upvotes == |Voters(l, content, 1)| && t.downvotes == |Voters(l, content, -1)|
  }

  /** Writing the pair (user, content) does not move any other content's voters. */
  lemma StoreKeepsOtherVoters(l: VoteLedger, user: UserId, content: Id, v: int, other: Id, sign: int)
    requires other != content
    ensures Voters(l[(user, content) := v], other, sign) == Voters(l, other, sign)
  {
    var l' := l[(user, content) := v];
    forall u | u in Voters(l', other, sign) ensures u in Voters(l, other, sign) {
      var k :| k in l' && k.1 == other && l'[k] == sign && k.0 == u;
      assert k in l && l[k] == sign;
    }
    forall u | u in Voters(l, other, sign) ensures u in Voters(l', other, sign) {
      var k :| k in l && k.1 == other && l[k] == sign && k.0 == u;
      assert k in l' && l'[k] == sign;
    }
  }

  /** Writing v for (user, content) adds `user` to the v-voters of `content`
      and removes it from every other sign's voters. */
  lemma StoreMovesVoter(l: VoteLedger, user: UserId, content: Id, v: int, sign: int)
    ensures sign == v ==> Voters(l[(user, content) := v], content, sign) == Voters(l, content, sign) + {user}
    ensures sign != v ==> Voters(l[(user, content) := v], content, sign) == Voters(l, content, sign) - {user}
  {
    var l' := l[(user, content) := v];
    forall u | u in Voters(l', content, sign)
      ensures u in Voters(l, content, sign) + {user} && (sign != v ==> u != user)
    {
      var k :| k in l' && k.1 == content && l'[k] == sign && k.0 == u;
      if k != (user, content) {
        assert k in l && l[k] == sign;
      }
    }
    forall u | u in Voters(l, content, sign) && u != user ensures u in Voters(l', content, sign) {
      var k :| k in l && k.1 == content && l[k] == sign && k.0 == u;
      assert k in l' && l'[k] == sign;
    }
    if sign == v {
      assert (user, content) in l' && l'[(user, content)] == sign;
    }
  }

  /** The user's own entry decides whether the user is among the voters. */
  lemma VoterIffEntry(l: VoteLedger, user: UserId, content: Id, sign: int)
    ensures user in Voters(l, content, sign) <==> (user, content) in l && l[(user, content)] == sign
  {
    if (user, content) in l && l[(user, content)] == sign {
      assert (user, content).0 == user;
    }
  }

  lemma CardAdd<T>(s: set<T>, x: T)
    ensures |s + {x}| == |s| + (if x in s then 0 else 1)
  {
    if x in s {
      assert s + {x} == s;
    }
  }

  lemma CardRemove<T>(s: set<T>, x: T)
    ensures |s - {x}| == |s| - (if x in s then 1 else 0)
  {
    if x !in s {
      assert s - {x} == s;
    }
  }

  /** Writing v for the user adds one v-voter unless the user already was one. */
  lemma StoreCountsSame(l: VoteLedger, user: UserId, content: Id, v: int)
    ensures |Voters(l[(user, content) := v], content, v)| ==
            |Voters(l, content, v)| + (if CheckVote(l, user, content) == Some(v) then 0 else 1)
  {
    StoreMovesVoter(l, user, content, v, v);
    VoterIffEntry(l, user, content, v);
    CardAdd(Voters(l, content, v), user);
  }

  /** Writing v for the user removes one voter of the opposite sign exactly
      when the user was one. */
  lemma StoreCountsOpposite(l: VoteLedger, user: UserId, content: Id, v: int)
    requires v != 0
    ensures |Voters(l[(user, content) := v], content, -v)| ==
            |Voters(l, content, -v)| - (if CheckVote(l, user, content) == Some(-v) then 1 else 0)
  {
    StoreMovesVoter(l, user, content, v, -v);
    VoterIffEntry(l, user, content, -v);
    CardRemove(Voters(l, content, -v), user);
  }

  /** A vote, handled as the controller does it (`checkVote`, then the tally
      transition, then `storeUserVote` with the same previous record), keeps
      the tally equal to the ledger counts: a user casts at most one vote per
      content. */
  lemma {:induction false} VoteKeepsTallyMatched(t: Tally, l: VoteLedger, user: UserId, content: Id, dir: Direction)
    requires WellFormed(l) && TallyMatches(t, l, content)
    ensures var prev := CheckVote(l, user, content);
      var l' := StoreUserVote(l, user, content, prev, dir.Value());
      && WellFormed(l')
      && TallyMatches(Cast(t, prev, dir), l', content)
      && forall other, sign :: other != content ==> Voters(l', other, sign) == Voters(l, other, sign)
  {
    var prev := CheckVote(l, user, content);
    var v := dir.Value();
    var l' := l[(user, content) := v];
    assert StoreUserVote(l, user, content, prev, v) == l';
    assert ValidPrevious(prev);
    StoreCountsSame(l, user, content, v);
    StoreCountsOpposite(l, user, content, v);
    forall other, sign | other != content
      ensures Voters(l', other, sign) == Voters(l, other, sign)
    {
      StoreKeepsOtherVoters(l, user, content, v, other, sign);
    }
  }
}

=== FILE: lifecycle.dfy ===
/** A thread's life as the board drives it without removals: create it, then
    any mix of posts, edits and votes. Every step keeps the four thread
    invariants together: counters count, timestamps bound their descendants,
    IDs are distinct, tallies agree with the vote ledger. Removals are the
    exception, and the lemmas at the end say exactly how they break the
    counters. */
module Lifecycle {
  import opened Common
  import opened Votes
  import opened Content
  import opened Ledger
  import opened Invariants
  import Threads
  import Messages
  import Comments
  import Board

  /** All four invariants of one stored thread and the ledger beside it. */
  predicate Healthy(t: Thread, l: VoteLedger) {
    && CountersMatch(t)
    && TimesOrdered(t)
    && DistinctIds(t)
    && WellFormed(l)
    && LedgerAgrees(t, l)
  }

  /** An ID not yet used anywhere in the thread (a freshly generated document ID). */
  predicate FreshId(t: Thread, id: Id) {
    && id != t.id
    && forall i :: 0 <= i < |t.messages| ==> id !in SubtreeIds(t.messages[i])
  }

  /** No ledger entry refers to the ID yet. */
  predicate Unrecorded(l: VoteLedger, id: Id) {
    forall k :: k in l ==> k.1 != id
  }

  lemma UnrecordedMatchesNoVotes(l: VoteLedger, id: Id)
    requires Unrecorded(l, id)
    ensures TallyMatches(NoVotes, l, id)
  {
    assert Voters(l, id, 1) == {};
    assert Voters(l, id, -1) == {};
  }

  // ---------------------------------------------------------------------
  // What edits and votes leave alone

  /** Same IDs and counters, node by node. */
  predicate SameStructure(t: Thread, t': Thread) {
    && t'.id == t.id && t'.messagesNumber == t.messagesNumber && t'.commentsNumber == t.commentsNumber
    && |t'.messages| == |t.messages|
    && forall i :: 0 <= i < |t.messages| ==> MessageStructure(t.messages[i], t'.messages[i])
  }

  predicate MessageStructure(m: Message, m': Message) {
    && m'.id == m.id && m'.commentsNumber == m.commentsNumber
    && |m'.comments| == |m.comments|
    && forall j :: 0 <= j < |m.comments| ==> m'.comments[j].id == m.comments[j].id
  }

  /** Same tallies, node by node. */
  predicate SameTallies(t: Thread, t': Thread) {
    && t'.votes == t.votes
    && |t'.messages| == |t.messages|
    && forall i :: 0 <= i < |t.messages| ==> MessageTallies(t.messages[i], t'.messages[i])
  }

  predicate MessageTallies(m: Message, m': Message) {
    && m'.votes == m.votes
    && |m'.comments| == |m.comments|
    && forall j :: 0 <= j < |m.comments| ==> m'.comments[j].votes == m.comments[j].votes
  }

  /** Same creation and update times, node by node. */
  predicate SameTimes(t: Thread, t': Thread) {
    && t'.time == t.time && t'.updated == t.updated
    && |t'.messages| == |t.messages|
    && forall i :: 0 <= i < |t.messages| ==> MessageTimes(t.messages[i], t'.messages[i])
  }

  predicate MessageTimes(m: Message, m': Message) {
    && m'.time == m.time && m'.updated == m.updated
    && |m'.comments| == |m.comments|
    && forall j :: 0 <= j < |m.comments| ==> m'.comments[j].time == m.comments[j].time
  }

  lemma {:induction false} TotalCommentsSameLengths(ms: seq<Message>, ms': seq<Message>)
    requires |ms'| == |ms|
    requires forall i :: 0 <= i < |ms| ==> |ms'[i].comments| == |ms[i].comments|
    ensures TotalComments(ms') == TotalComments(ms)
    decreases |ms|
  {
    if |ms| > 0 {
      var n := |ms| - 1;
      TotalCommentsSameLengths(ms[..n], ms'[..n]);
    }
  }

  lemma SubtreeIdsSame(m: Message, m': Message)
    requires MessageStructure(m, m')
    ensures SubtreeIds(m') == SubtreeIds(m)
  {
    forall x | x in SubtreeIds(m') ensures x in SubtreeIds(m) {
      if x != m'.id {
        var c :| c in m'.comments && c.id == x;
        var j :| 0 <= j < |m'.comments| && m'.comments[j] == c;
        assert m.comments[j] in m.comments;
      }
    }
    forall x | x in SubtreeIds(m) ensures x in SubtreeIds(m') {
      if x != m.id {
        var c :| c in m.comments && c.id == x;
        var j :| 0 <= j < |m.comments| && m.comments[j] == c;
        assert m'.comments[j] in m'.comments;
      }
    }
  }

  /** Counters and distinct IDs depend only on the structure. */
  lemma StructureKeeps(t: Thread, t': Thread)
    requires SameStructure(t, t')
    ensures CountersMatch(t) ==> CountersMatch(t')
    ensures DistinctIds(t) ==> DistinctIds(t')
  {
    TotalCommentsSameLengths(t.messages, t'.messages);
    forall i | 0 <= i < |t.messages| ensures SubtreeIds(t'.messages[i]) == SubtreeIds(t.messages[i]) {
      SubtreeIdsSame(t.messages[i], t'.messages[i]);
    }
  }

  /** Ledger agreement depends only on IDs and tallies. */
  lemma TalliesKeep(t: Thread, t': Thread, l: VoteLedger)
    requires SameStructure(t, t') && SameTallies(t, t') && LedgerAgrees(t, l)
    ensures LedgerAgrees(t', l)
  {
    forall i | 0 <= i < |t'.messages| ensures MessageAgrees(t'.messages[i], l) {
      assert MessageAgrees(t.messages[i], l);
    }
  }

  /** Timestamp order depends only on the times. */
  lemma TimesKeep(t: Thread, t': Thread)
    requires SameTimes(t, t') && TimesOrdered(t)
    ensures TimesOrdered(t')
  {
    forall i | 0 <= i < |t'.messages| ensures MessageTimesOrdered(t'.messages[i], t'.updated) {
      assert MessageTimesOrdered(t.messages[i], t.updated);
    }
  }

  /** Raising the bound keeps a message's times ordered under it. */
  lemma RaiseBound(t: Thread, b: Time)
    requires TimesOrdered(t) && t.updated <= b
    ensures forall i :: 0 <= i < |t.messages| ==> MessageTimesOrdered(t.messages[i], b)
  {
  }

  // ---------------------------------------------------------------------
  // One step at a time

  /** Thread `edit` keeps everything, given a clock that does not run backwards. */
  lemma ThreadEditKeeps(t: Thread, l: VoteLedger, title: Option<string>, text: Option<string>, now: Time, save: Save)
    requires Healthy(t, l) && t.updated <= now
    ensures var r := Threads.Edit(t, title, text, now, save); r.Ok? ==> Healthy(r.value, l)
  {
    var r := Threads.Edit(t, title, text, now, save);
    if r.Ok? {
      StructureKeeps(t, r.value);
      TalliesKeep(t, r.value, l);
      RaiseBound(t, now);
    }
  }

  /** Message `m`, with no comments and no votes, appended to the thread,
      whatever the clock says. */
  predicate PushesMessage(t: Thread, t': Thread, m: Message) {
    && t'.messages == t.messages + [m]
    && m.comments == [] && m.commentsNumber == 0 && m.votes == NoVotes
    && t'.messagesNumber == t.messagesNumber + 1
    && t'.(messages := t.messages, messagesNumber := t.messagesNumber, updated := t.updated) == t
  }

  /** The same append, as `newMessage` stores it with a clock that does not run backwards. */
  predicate AppendsMessage(t: Thread, t': Thread, m: Message) {
    && PushesMessage(t, t', m)
    && m.time <= m.updated <= t'.updated
    && t.updated <= t'.updated
  }

  lemma PushCounters(t: Thread, t': Thread, m: Message)
    requires PushesMessage(t, t', m) && CountersMatch(t)
    ensures CountersMatch(t')
  {
    TotalCommentsAppend(t.messages, m);
    forall k | 0 <= k < |t'.messages| ensures t'.messages[k].commentsNumber == |t'.messages[k].comments| {
      if k < |t.messages| {
        assert t'.messages[k] == t.messages[k];
      }
    }
  }

  lemma PushTimes(t: Thread, t': Thread, m: Message)
    requires AppendsMessage(t, t', m) && TimesOrdered(t)
    ensures TimesOrdered(t')
  {
    RaiseBound(t, t'.updated);
    forall k | 0 <= k < |t'.messages| ensures MessageTimesOrdered(t'.messages[k], t'.updated) {
      if k < |t.messages| {
        assert t'.messages[k] == t.messages[k];
      }
    }
  }

  lemma PushIds(t: Thread, t': Thread, m: Message)
    requires AppendsMessage(t, t', m) && DistinctIds(t) && FreshId(t, m.id)
    ensures DistinctIds(t')
  {
    var ms := t.messages;
    assert SubtreeIds(m) == {m.id};
    forall k | 0 <= k < |t'.messages| ensures t'.id !in SubtreeIds(t'.messages[k]) && CommentIdsDistinct(t'.messages[k]) {
      if k < |ms| {
        assert t'.messages[k] == ms[k];
      }
    }
    forall k, k' | 0 <= k < k' < |t'.messages|
      ensures SubtreeIds(t'.messages[k]) !! SubtreeIds(t'.messages[k'])
    {
      assert t'.messages[k] == ms[k];
      if k' < |ms| {
        assert t'.messages[k'] == ms[k'];
        assert SubtreeIds(ms[k]) !! SubtreeIds(ms[k']);
      }
    }
  }

  lemma PushLedger(t: Thread, t': Thread, m: Message, l: VoteLedger)
    requires AppendsMessage(t, t', m) && LedgerAgrees(t, l) && Unrecorded(l, m.id)
    ensures LedgerAgrees(t', l)
  {
    UnrecordedMatchesNoVotes(l, m.id);
    forall k | 0 <= k < |t'.messages| ensures MessageAgrees(t'.messages[k], l) {
      if k < |t.messages| {
        assert t'.messages[k] == t.messages[k];
      }
    }
  }

  /** `newMessage` with a fresh ID keeps everything, given a clock that does not run backwards. */
  lemma {:induction false} NewMessageKeeps(t: Thread, l: VoteLedger, id: Id, text: string, author: UserId, now: Time, save: Save)
    requires Healthy(t, l) && FreshId(t, id) && Unrecorded(l, id) && t.updated <= now
    ensures var r := Threads.NewMessage(t, id, text, author, now, save); r.Ok? ==> Healthy(r.value.0, l)
  {
    var r := Threads.NewMessage(t, id, text, author, now, save);
    if r.Ok? {
      var (t', m) := r.value;
      assert AppendsMessage(t, t', m);
      PushCounters(t, t', m);
      PushTimes(t, t', m);
      PushIds(t, t', m);
      PushLedger(t, t', m, l);
    }
  }

  /** Message `edit` keeps everything, given a clock that does not run backwards. */
  lemma {:induction false} MessageEditKeeps(t: Thread, l: VoteLedger, mid: Id, text: Option<string>, now: Time,
                                            messageSave: Save, threadSave: Save)
    requires Healthy(t, l) && t.updated <= now
    ensures var r := Messages.Edit(t, mid, text, now, messageSave, threadSave); r.Ok? ==> Healthy(r.value, l)
  {
    var r := Messages.Edit(t, mid, text, now, messageSave, threadSave);
    if r.Ok? {
      var t' := r.value;
      var i := Messages.Locate(t, mid).value;
      assert MessageStructure(t.messages[i], t'.messages[i]);
      assert MessageTallies(t.messages[i], t'.messages[i]);
      StructureKeeps(t, t');
      TalliesKeep(t, t', l);
      RestampTimes(t, t', i);
    }
  }

  /** Message i restamped with the thread's new, later `updated`: the times stay ordered. */
  lemma RestampTimes(t: Thread, t': Thread, i: nat)
    requires TimesOrdered(t) && i < |t.messages| == |t'.messages|
    requires OthersKept(t.messages, t'.messages, i)
    requires t'.messages[i] == t.messages[i].(text := t'.messages[i].text, updated := t'.updated)
    requires t.updated <= t'.updated && t'.time == t.time
    ensures TimesOrdered(t')
  {
    forall k | 0 <= k < |t'.messages| ensures MessageTimesOrdered(t'.messages[k], t'.updated) {
      assert MessageTimesOrdered(t.messages[k], t.updated);
    }
  }

  /** Comment `c` appended to message i, whatever the clock says. */
  predicate PushesComment(t: Thread, t': Thread, i: nat, c: Comment) {
    && i < |t.messages| && |t'.messages| == |t.messages|
    && OthersKept(t.messages, t'.messages, i)
    && t'.messages[i] == t.messages[i].(comments := t.messages[i].comments + [c],
                                        commentsNumber := t.messages[i].commentsNumber + 1,
                                        updated := c.time)
    && c.votes == NoVotes
    && t'.commentsNumber == t.commentsNumber + 1
    && t'.(messages := t.messages, commentsNumber := t.commentsNumber, updated := t.updated) == t
  }

  /** The same append, as `newComment` stores it with a clock that does not run backwards. */
  predicate AppendsComment(t: Thread, t': Thread, i: nat, c: Comment) {
    && PushesComment(t, t', i, c)
    && t'.updated >= t.updated && t'.updated >= c.time
  }

  lemma AppendCounters(t: Thread, t': Thread, i: nat, c: Comment)
    requires PushesComment(t, t', i, c) && CountersMatch(t)
    ensures CountersMatch(t')
  {
    assert t'.messages == t.messages[i := t'.messages[i]];
    TotalCommentsReplace(t.messages, i, t'.messages[i]);
  }

  lemma AppendTimes(t: Thread, t': Thread, i: nat, c: Comment)
    requires AppendsComment(t, t', i, c) && TimesOrdered(t) && t.updated <= c.time
    ensures TimesOrdered(t')
  {
    var m := t.messages[i];
    var m' := t'.messages[i];
    assert MessageTimesOrdered(m, t.updated);
    forall j | 0 <= j < |m'.comments| ensures m'.comments[j].time <= m'.updated {
      if j < |m.comments| {
        assert m'.comments[j] == m.comments[j];
      }
    }
    forall k | 0 <= k < |t'.messages| && k != i ensures MessageTimesOrdered(t'.messages[k], t'.updated) {
      assert MessageTimesOrdered(t.messages[k], t.updated);
    }
  }

  lemma AppendIds(t: Thread, t': Thread, i: nat, c: Comment)
    requires AppendsComment(t, t', i, c) && DistinctIds(t) && FreshId(t, c.id)
    ensures DistinctIds(t')
  {
    var m := t.messages[i];
    var m' := t'.messages[i];
    assert m'.comments == m.comments + [c];
    assert SubtreeIds(m') == SubtreeIds(m) + {c.id} by {
      assert (set x | x in m'.comments :: x.id) == (set x | x in m.comments :: x.id) + {c.id};
    }
    assert CommentIdsDistinct(m');
    forall k, k' | 0 <= k < k' < |t'.messages|
      ensures SubtreeIds(t'.messages[k]) !! SubtreeIds(t'.messages[k'])
    {
      assert SubtreeIds(t.messages[k]) !! SubtreeIds(t.messages[k']);
    }
  }

  lemma AppendLedger(t: Thread, t': Thread, i: nat, c: Comment, l: VoteLedger)
    requires AppendsComment(t, t', i, c) && LedgerAgrees(t, l) && Unrecorded(l, c.id)
    ensures LedgerAgrees(t', l)
  {
    var m := t.messages[i];
    var m' := t'.messages[i];
    UnrecordedMatchesNoVotes(l, c.id);
    assert MessageAgrees(m, l);
    forall j | 0 <= j < |m'.comments| ensures TallyMatches(m'.comments[j].votes, l, m'.comments[j].id) {
      if j < |m.comments| {
        assert m'.comments[j] == m.comments[j];
      }
    }
    forall k | 0 <= k < |t'.messages| && k != i ensures MessageAgrees(t'.messages[k], l) {
      assert MessageAgrees(t.messages[k], l);
    }
  }

  /** `newComment` with a fresh ID keeps everything, given a clock that does not run backwards. */
  lemma {:induction false} NewCommentKeeps(t: Thread, l: VoteLedger, mid: Id, cid: Id, text: string, author: UserId,
                                           now: Time, messageSave: Save, threadSave: Save)
    requires Healthy(t, l) && FreshId(t, cid) && Unrecorded(l, cid) && t.updated <= now
    ensures var r := Messages.NewComment(t, mid, cid, text, author, now, messageSave, threadSave);
      r.Ok? ==> Healthy(r.value.0, l)
  {
    var r := Messages.NewComment(t, mid, cid, text, author, now, messageSave, threadSave);
    if r.Ok? {
      var (t', c) := r.value;
      var i := Messages.Locate(t, mid).value;
      assert AppendsComment(t, t', i, c);
      AppendCounters(t, t', i, c);
      AppendTimes(t, t', i, c);
      AppendIds(t, t', i, c);
      AppendLedger(t, t', i, c, l);
    }
  }

  /** Comment j of message i rewritten in place, keeping its ID, tally and
      time; the ancestors' `updated` may only grow, the message's staying
      below the thread's. */
  predicate RewritesComment(t: Thread, t': Thread, i: nat, j: nat) {
    && i < |t.messages| && |t'.messages| == |t.messages|
    && OthersKept(t.messages, t'.messages, i)
    && var m := t.messages[i];
    var m' := t'.messages[i];
    && j < |m.comments| && |m'.comments| == |m.comments|
    && OthersKept(m.comments, m'.comments, j)
    && m'.comments[j].(text := m.comments[j].text) == m.comments[j]
    && m'.(comments := m.comments, updated := m.updated) == m
    && m.updated <= m'.updated <= t'.updated
    && t.updated <= t'.updated
    && t'.(messages := t.messages, updated := t.updated) == t
  }

  lemma RewriteKeeps(t: Thread, t': Thread, i: nat, j: nat, l: VoteLedger)
    requires RewritesComment(t, t', i, j) && Healthy(t, l)
    ensures Healthy(t', l)
  {
    var m := t.messages[i];
    var m' := t'.messages[i];
    assert m'.comments[j].id == m.comments[j].id && m'.comments[j].votes == m.comments[j].votes;
    assert m'.comments[j].time == m.comments[j].time;
    assert MessageStructure(m, m');
    assert MessageTallies(m, m');
    StructureKeeps(t, t');
    TalliesKeep(t, t', l);
    assert MessageTimesOrdered(m, t.updated);
    forall k | 0 <= k < |t'.messages| && k != i ensures MessageTimesOrdered(t'.messages[k], t'.updated) {
      assert MessageTimesOrdered(t.messages[k], t.updated);
    }
  }

  /** Comment `edit` keeps everything, whatever the clock says: both ancestor
      timestamps move by max. */
  lemma {:induction false} CommentEditKeeps(t: Thread, l: VoteLedger, mid: Id, cid: Id, text: Option<string>, now: Time,
                                            commentSave: Save, messageSave: Save, threadSave: Save)
    requires Healthy(t, l)
    ensures var r := Comments.Edit(t, mid, cid, text, now, commentSave, messageSave, threadSave);
      r.Ok? ==> Healthy(r.value, l)
  {
    var r := Comments.Edit(t, mid, cid, text, now, commentSave, messageSave, threadSave);
    if r.Ok? {
      var i := Messages.Locate(t, mid).value;
      var j := Comments.LocateIn(t.messages[i], cid).value;
      assert RewritesComment(t, r.value, i, j);
      RewriteKeeps(t, r.value, i, j, l);
    }
  }

  /** A vote on a message moves no ID, counter or time. */
  lemma MessageVoteShape(t: Thread, mid: Id, prev: PreviousVote, dir: Direction, messageSave: Save, threadSave: Save)
    ensures var r := Messages.Vote(t, mid, prev, dir, messageSave, threadSave);
      r.Ok? ==> SameStructure(t, r.value) && SameTimes(t, r.value)
  {
    var r := Messages.Vote(t, mid, prev, dir, messageSave, threadSave);
    if r.Ok? {
      var i := Messages.Locate(t, mid).value;
      assert MessageStructure(t.messages[i], r.value.messages[i]);
      assert MessageTimes(t.messages[i], r.value.messages[i]);
    }
  }

  /** A vote on a comment moves no ID, counter or time. */
  lemma CommentVoteShape(t: Thread, mid: Id, cid: Id, prev: PreviousVote, dir: Direction,
                         commentSave: Save, messageSave: Save, threadSave: Save)
    ensures var r := Comments.Vote(t, mid, cid, prev, dir, commentSave, messageSave, threadSave);
      r.Ok? ==> SameStructure(t, r.value) && SameTimes(t, r.value)
  {
    var r := Comments.Vote(t, mid, cid, prev, dir, commentSave, messageSave, threadSave);
    if r.Ok? {
      var t' := r.value;
      var i := Messages.Locate(t, mid).value;
      var j := Comments.LocateIn(t.messages[i], cid).value;
      assert t'.messages[i].comments[j].time == t.messages[i].comments[j].time;
      assert t'.messages[i].comments[j].id == t.messages[i].comments[j].id;
      assert MessageStructure(t.messages[i], t'.messages[i]);
      assert MessageTimes(t.messages[i], t'.messages[i]);
    }
  }

  /** A vote request keeps everything, provided the ledger write goes through. */
  lemma {:induction false} VoteKeeps(t: Thread, l: VoteLedger, target: Board.Target, dir: Direction, user: UserId,
                                     read: Read, saves: Board.Saves)
    requires Healthy(t, l)
    ensures var r := Board.CastVote(t, target, dir, user, l, read, saves, Saved); Healthy(r.stored, r.ledger)
  {
    var r := Board.CastVote(t, target, dir, user, l, read, saves, Saved);
    VoteKeepsLedgerAgreement(t, target, dir, user, l, read, saves);
    var prev := CheckVote(l, user, Board.TargetId(t, target));
    var applied := Board.ApplyVote(t, target, prev, dir, saves);
    if read.Answered? && applied.Ok? {
      match target {
        case OnThread =>
        case OnMessage(mid) =>
          MessageVoteShape(t, mid, prev, dir, saves.message, saves.thread);
        case OnComment(mid, cid) =>
          CommentVoteShape(t, mid, cid, prev, dir, saves.comment, saves.message, saves.thread);
      }
      assert r.stored == applied.value;
      StructureKeeps(t, r.stored);
      TimesKeep(t, r.stored);
    }
  }

  // ---------------------------------------------------------------------
  // Whole runs

  /** What the database holds for one thread: the thread document and the vote ledger. */
  datatype Store = Store(thread: Thread, ledger: VoteLedger)

  /** One request that adds, edits or votes, with its inputs and save outcomes. */
  datatype Step =
    | PostMessage(id: Id, text: string, author: UserId, now: Time, save: Save)
    | PostComment(mid: Id, cid: Id, text: string, author: UserId, now: Time, messageSave: Save, threadSave: Save)
    | ReviseThread(title: Option<string>, body: Option<string>, now: Time, save: Save)
    | ReviseMessage(mid: Id, body: Option<string>, now: Time, messageSave: Save, threadSave: Save)
    | ReviseComment(mid: Id, cid: Id, body: Option<string>, now: Time,
                    commentSave: Save, messageSave: Save, threadSave: Save)
    | VoteOn(target: Board.Target, dir: Direction, user: UserId, read: Read, saves: Board.Saves)

  /** The store after one step; a step that fails leaves it as it was. Ledger
      writes are taken to succeed. */
  function Apply(s: Store, step: Step): Store {
    match step
    case PostMessage(id, text, author, now, save) =>
      var r := Threads.NewMessage(s.thread, id, text, author, now, save);
      if r.Ok? then s.(thread := r.value.0) else s
    case PostComment(mid, cid, text, author, now, messageSave, threadSave) =>
      var r := Messages.NewComment(s.thread, mid, cid, text, author, now, messageSave, threadSave);
      if r.Ok? then s.(thread := r.value.0) else s
    case ReviseThread(title, text, now, save) =>
      var r := Threads.Edit(s.thread, title, text, now, save);
      if r.Ok? then s.(thread := r.value) else s
    case ReviseMessage(mid, body, now, messageSave, threadSave) =>
      var r := Messages.Edit(s.thread, mid, body, now, messageSave, threadSave);
      if r.Ok? then s.(thread := r.value) else s
    case ReviseComment(mid, cid, body, now, commentSave, messageSave, threadSave) =>
      var r := Comments.Edit(s.thread, mid, cid, body, now, commentSave, messageSave, threadSave);
      if r.Ok? then s.(thread := r.value) else s
    case VoteOn(target, dir, user, read, saves) =>
      var r := Board.CastVote(s.thread, target, dir, user, s.ledger, read, saves, Saved);
      Store(r.stored, r.ledger)
  }

  /** The environment's side of the bargain: generated IDs are fresh and
      unvoted, and the clock does not run backwards for the steps that assign
      `updated` directly. */
  predicate Admissible(s: Store, step: Step) {
    match step
    case PostMessage(id, _, _, now, _) =>
      FreshId(s.thread, id) && Unrecorded(s.ledger, id) && s.thread.updated <= now
    case PostComment(_, cid, _, _, now, _, _) =>
      FreshId(s.thread, cid) && Unrecorded(s.ledger, cid) && s.thread.updated <= now
    case ReviseThread(_, _, now, _) => s.thread.updated <= now
    case ReviseMessage(_, _, now, _, _) => s.thread.updated <= now
    case ReviseComment(_, _, _, _, _, _, _) => true
    case VoteOn(_, _, _, _, _) => true
  }

  /** The store after the steps, first to last. */
  function Run(s: Store, steps: seq<Step>): Store
    decreases |steps|
  {
    if |steps| == 0 then s else Run(Apply(s, steps[0]), steps[1..])
  }

  /** Every step admissible in the store it meets. */
  predicate Feasible(s: Store, steps: seq<Step>)
    decreases |steps|
  {
    |steps| == 0 || (Admissible(s, steps[0]) && Feasible(Apply(s, steps[0]), steps[1..]))
  }

  /** One admissible step keeps the store healthy. */
  lemma StepKeeps(s: Store, step: Step)
    requires Healthy(s.thread, s.ledger) && Admissible(s, step)
    ensures Healthy(Apply(s, step).thread, Apply(s, step).ledger)
  {
    match step
    case PostMessage(id, text, author, now, save) =>
      NewMessageKeeps(s.thread, s.ledger, id, text, author, now, save);
    case PostComment(mid, cid, text, author, now, messageSave, threadSave) =>
      NewCommentKeeps(s.thread, s.ledger, mid, cid, text, author, now, messageSave, threadSave);
    case ReviseThread(title, text, now, save) =>
      ThreadEditKeeps(s.thread, s.ledger, title, text, now, save);
    case ReviseMessage(mid, body, now, messageSave, threadSave) =>
      MessageEditKeeps(s.thread, s.ledger, mid, body, now, messageSave, threadSave);
    case ReviseComment(mid, cid, body, now, commentSave, messageSave, threadSave) =>
      CommentEditKeeps(s.thread, s.ledger, mid, cid, body, now, commentSave, messageSave, threadSave);
    case VoteOn(target, dir, user, read, saves) =>
      VoteKeeps(s.thread, s.ledger, target, dir, user, read, saves);
  }

  /** The four thread invariants hold after any feasible run of posts, edits and
      votes from a healthy store. */
  lemma {:induction false} RunKeeps(s: Store, steps: seq<Step>)
    requires Healthy(s.thread, s.ledger) && Feasible(s, steps)
    ensures Healthy(Run(s, steps).thread, Run(s, steps).ledger)
    decreases |steps|
  {
    if |steps| > 0 {
      StepKeeps(s, steps[0]);
      RunKeeps(Apply(s, steps[0]), steps[1..]);
    }
  }

  /** A post appends one node and bumps its counters, whatever its ID and time. */
  lemma PostCounts(s: Store, step: Step)
    requires CountersMatch(s.thread) && (step.PostMessage? || step.PostComment?)
    ensures CountersMatch(Apply(s, step).thread)
  {
    var t := s.thread;
    match step
    case PostMessage(id, text, author, now, save) =>
      var r := Threads.NewMessage(t, id, text, author, now, save);
      if r.Ok? {
        assert PushesMessage(t, r.value.0, r.value.1);
        PushCounters(t, r.value.0, r.value.1);
      }
    case PostComment(mid, cid, text, author, now, messageSave, threadSave) =>
      var r := Messages.NewComment(t, mid, cid, text, author, now, messageSave, threadSave);
      if r.Ok? {
        var i := Messages.Locate(t, mid).value;
        assert PushesComment(t, r.value.0, i, r.value.1);
        AppendCounters(t, r.value.0, i, r.value.1);
      }
  }

  /** A comment edit rewrites one comment's text and moves no ID or counter. */
  lemma CommentEditStructure(t: Thread, mid: Id, cid: Id, text: Option<string>, now: Time,
                             commentSave: Save, messageSave: Save, threadSave: Save)
    ensures var r := Comments.Edit(t, mid, cid, text, now, commentSave, messageSave, threadSave);
      r.Ok? ==> SameStructure(t, r.value)
  {
    var r := Comments.Edit(t, mid, cid, text, now, commentSave, messageSave, threadSave);
    if r.Ok? {
      var i := Messages.Locate(t, mid).value;
      var j := Comments.LocateIn(t.messages[i], cid).value;
      assert r.value.messages[i].comments[j].id == t.messages[i].comments[j].id;
      assert MessageStructure(t.messages[i], r.value.messages[i]);
    }
  }

  /** An edit or a vote moves no ID or counter. */
  lemma ReviseOrVoteCounts(s: Store, step: Step)
    requires CountersMatch(s.thread) && !step.PostMessage? && !step.PostComment?
    ensures CountersMatch(Apply(s, step).thread)
  {
    var t := s.thread;
    match step
    case ReviseThread(title, text, now, save) =>
      var r := Threads.Edit(t, title, text, now, save);
      if r.Ok? {
        StructureKeeps(t, r.value);
      }
    case ReviseMessage(mid, body, now, messageSave, threadSave) =>
      var r := Messages.Edit(t, mid, body, now, messageSave, threadSave);
      if r.Ok? {
        var i := Messages.Locate(t, mid).value;
        assert MessageStructure(t.messages[i], r.value.messages[i]);
        StructureKeeps(t, r.value);
      }
    case ReviseComment(mid, cid, body, now, commentSave, messageSave, threadSave) =>
      var r := Comments.Edit(t, mid, cid, body, now, commentSave, messageSave, threadSave);
      if r.Ok? {
        CommentEditStructure(t, mid, cid, body, now, commentSave, messageSave, threadSave);
        StructureKeeps(t, r.value);
      }
    case VoteOn(target, dir, user, read, saves) =>
      var prev := CheckVote(s.ledger, user, Board.TargetId(t, target));
      var applied := Board.ApplyVote(t, target, prev, dir, saves);
      if read.Answered? && applied.Ok? {
        match target {
          case OnThread =>
          case OnMessage(mid) =>
            MessageVoteShape(t, mid, prev, dir, saves.message, saves.thread);
          case OnComment(mid, cid) =>
            CommentVoteShape(t, mid, cid, prev, dir, saves.comment, saves.message, saves.thread);
        }
        StructureKeeps(t, applied.value);
      }
  }

  /** Any step keeps the counter invariant, with no condition on the IDs
      or the clock: a reused ID or a stale time breaks the other invariants
      but not the counters. */
  lemma StepKeepsCounters(s: Store, step: Step)
    requires CountersMatch(s.thread)
    ensures CountersMatch(Apply(s, step).thread)
  {
    if step.PostMessage? || step.PostComment? {
      PostCounts(s, step);
    } else {
      ReviseOrVoteCounts(s, step);
    }
  }

  /** Counter invariant over any run of posts, edits and votes, feasible or
      not: every counter still equals what it counts. */
  lemma {:induction false} RunKeepsCounters(s: Store, steps: seq<Step>)
    requires CountersMatch(s.thread)
    ensures CountersMatch(Run(s, steps).thread)
    decreases |steps|
  {
    if |steps| > 0 {
      StepKeepsCounters(s, steps[0]);
      RunKeepsCounters(Apply(s, steps[0]), steps[1..]);
    }
  }

  /** A thread created by `newThread` starts healthy next to a well-formed
      ledger that has never seen its ID, and so stays healthy through any
      feasible run. */
  lemma {:induction false} CreatedThreadStaysHealthy(body: Board.Body, user: UserId, id: Id, now: Time, save: Save,
                                                     l: VoteLedger, steps: seq<Step>)
    requires WellFormed(l) && Unrecorded(l, id)
    ensures var r := Board.NewThread(body, user, id, now, save);
      r.Ok? && Feasible(Store(r.value, l), steps) ==>
      Healthy(Run(Store(r.value, l), steps).thread, Run(Store(r.value, l), steps).ledger)
  {
    var r := Board.NewThread(body, user, id, now, save);
    if r.Ok? && Feasible(Store(r.value, l), steps) {
      NewThreadAgrees(r.value, l);
      RunKeeps(Store(r.value, l), steps);
    }
  }
}

=== FILE: messages.dfy ===
/** Message-level operations (schemas/message.js), reached from the thread by
    message ID as the delegators of schemas/thread.js do. Each saves the
    message and then the thread; a failure at either level ends the request
    with DBError and the stored thread is the one passed in. */
module Messages {
  import opened Common
  import opened Votes
  import opened Content

  /** `thread.messages.id(mid)`: the position of the message, if any. */
  function Locate(t: Thread, mid: Id): (r: Option<nat>)
    ensures r.Some? ==> r.value < |t.messages| && t.messages[r.value].id == mid
    ensures r.Some? ==> forall k :: 0 <= k < r.value ==> t.messages[k].id != mid
    ensures r.None? ==> forall k :: 0 <= k < |t.messages| ==> t.messages[k].id != mid
  {
    IndexOfId(t.messages, MessageId, mid)
  }

  /** `edit(text, thread)`: replace the text only by a truthy value, stamp the
      message with `now`, then move the thread's `updated` to the later of
      its value and `now`. */
  function Edit(t: Thread, mid: Id, text: Option<string>, now: Time, messageSave: Save, threadSave: Save)
    : (r: Result<Thread>)
    ensures r.Ok? <==> Locate(t, mid).Some? && messageSave.Saved? && threadSave.Saved?
    ensures r.Err? ==> r.error == (if Locate(t, mid).None? then MissingTarget else DBError)
    ensures r.Ok? ==>
      var i := Locate(t, mid).value;
      OthersKept(t.messages, r.value.messages, i) &&
      var m := r.value.messages[i];
      && (Truthy(text) ==> m.text == text.value)
      && (!Truthy(text) ==> m.text == t.messages[i].text)
      && m.updated == now
      && m.(text := t.messages[i].text, updated := t.messages[i].updated) == t.messages[i]
    ensures r.Ok? ==> r.value.updated >= t.updated && r.value.updated >= now
    ensures r.Ok? ==> r.value.updated == t.updated || r.value.updated == now
    ensures r.Ok? ==> r.value.(messages := t.messages, updated := t.updated) == t
  {
    match Locate(t, mid)
    case None => Err(MissingTarget)
    case Some(i) =>
      var m := t.messages[i];
      var m' := m.(text := UpdatedField(m.text, text), updated := now);
      if messageSave.SaveFailed? then Err(DBError)
      else if threadSave.SaveFailed? then Err(DBError)
      else Ok(t.(messages := t.messages[i := m'], updated := Later(t.updated, now)))
  }

  /** `upvote` / `downvote`: the shared transition on the message's own tally;
      the thread is only re-saved, its tally and times unchanged. */
  function Vote(t: Thread, mid: Id, prev: PreviousVote, dir: Direction, messageSave: Save, threadSave: Save)
    : (r: Result<Thread>)
    ensures r.Ok? <==> Locate(t, mid).Some? && messageSave.Saved? && threadSave.Saved?
    ensures r.Err? ==> r.error == (if Locate(t, mid).None? then MissingTarget else DBError)
    ensures r.Ok? ==>
      var i := Locate(t, mid).value;
      && OthersKept(t.messages, r.value.messages, i)
      && r.value.messages[i].votes == Cast(t.messages[i].votes, prev, dir)
      && r.value.messages[i].(votes := t.messages[i].votes) == t.messages[i]
    ensures r.Ok? ==> r.value.(messages := t.messages) == t
  {
    match Locate(t, mid)
    case None => Err(MissingTarget)
    case Some(i) =>
      var m := t.messages[i];
      if messageSave.SaveFailed? then Err(DBError)
      else if threadSave.SaveFailed? then Err(DBError)
      else Ok(t.(messages := t.messages[i := m.(votes := Cast(m.votes, prev, dir))]))
  }

  /** The comment `new Comment({text, author})` builds: created at `now`, no votes. */
  function FreshComment(id: Id, text: string, author: UserId, now: Time): Comment {
    Comment(id, text, author, now, NoVotes)
  }

  /** `newComment(text, author, thread)`: append one comment (the message's
      save refuses an empty text or author, as the schema requires both), set the
      message's `updated` to the comment's time (an assignment) and count it;
      once the message is saved, move the thread's `updated` to the later of
      its value and the comment's time, count the comment at thread level,
      save, and hand back the new comment. */
  function NewComment(t: Thread, mid: Id, cid: Id, text: string, author: UserId, now: Time,
                      messageSave: Save, threadSave: Save)
    : (r: Result<(Thread, Comment)>)
    ensures r.Ok? <==>
      Locate(t, mid).Some? && Required(text) && Required(author) && messageSave.Saved? && threadSave.Saved?
    ensures r.Err? ==> r.error == (if Locate(t, mid).None? then MissingTarget else DBError)
    ensures r.Ok? ==>
      var (t', c) := r.value;
      var i := Locate(t, mid).value;
      && c == Comment(cid, text, author, now, NoVotes)
      && OthersKept(t.messages, t'.messages, i)
      && t'.messages[i].comments == t.messages[i].comments + [c]
      && t'.messages[i].commentsNumber == t.messages[i].commentsNumber + 1
      && t'.messages[i].updated == c.time
      && t'.messages[i].(comments := t.messages[i].comments, commentsNumber := t.messages[i].commentsNumber,
                         updated := t.messages[i].updated) == t.messages[i]
    ensures r.Ok? ==> r.value.0.commentsNumber == t.commentsNumber + 1
    ensures r.Ok? ==> r.value.0.updated >= t.updated && r.value.0.updated >= r.value.1.time
    ensures r.Ok? ==> r.value.0.updated == t.updated || r.value.0.updated == r.value.1.time
    ensures r.Ok? ==>
      r.value.0.(messages := t.messages, commentsNumber := t.commentsNumber, updated := t.updated) == t
  {
    match Locate(t, mid)
    case None => Err(MissingTarget)
    case Some(i) =>
      var m := t.messages[i];
      var c := FreshComment(cid, text, author, now);
      var m' := m.(comments := m.comments + [c], updated := c.time, commentsNumber := m.commentsNumber + 1);
      if !Required(text) || !Required(author) || messageSave.SaveFailed? then Err(DBError)
      else
        var t' := t.(messages := t.messages[i := m'], updated := Later(t.updated, c.time),
                     commentsNumber := t.commentsNumber + 1);
        if threadSave.SaveFailed? then Err(DBError) else Ok((t', c))
  }

  /** `removeComment(cid, thread)`: pull every comment with that ID from the
      message and decrement the message's `commentsNumber` unconditionally;
      the thread's `commentsNumber` is left as it was. */
  function RemoveComment(t: Thread, mid: Id, cid: Id, messageSave: Save, threadSave: Save)
    : (r: Result<Thread>)
    ensures r.Ok? <==> Locate(t, mid).Some? && messageSave.Saved? && threadSave.Saved?
    ensures r.Err? ==> r.error == (if Locate(t, mid).None? then MissingTarget else DBError)
    ensures r.Ok? ==>
      var i := Locate(t, mid).value;
      OthersKept(t.messages, r.value.messages, i) &&
      var m := r.value.messages[i];
      && (forall c :: c in m.comments <==> c in t.messages[i].comments && c.id != cid)
      && |m.comments| == |t.messages[i].comments| - Occurrences(t.messages[i].comments, CommentId, cid)
      && m.commentsNumber == t.messages[i].commentsNumber - 1
      && m.(comments := t.messages[i].comments, commentsNumber := t.messages[i].commentsNumber) == t.messages[i]
    ensures r.Ok? ==> r.value.(messages := t.messages) == t
  {
    match Locate(t, mid)
    case None => Err(MissingTarget)
    case Some(i) =>
      var m := t.messages[i];
      PullMembers(m.comments, CommentId, cid);
      var m' := m.(comments := Pull(m.comments, CommentId, cid), commentsNumber := m.commentsNumber - 1);
      if messageSave.SaveFailed? then Err(DBError)
      else if threadSave.SaveFailed? then Err(DBError)
      else Ok(t.(messages := t.messages[i := m']))
  }
}

=== FILE: query.dfy ===
/** The thread-list query `listThreads` builds from its GET parameters
    (controllers/board.js): optional country and language filters, an offset
    and a page size with defaults, newest update first. */
module Query {
  import opened Common
  import opened Content

  /** A numeric GET parameter as `isNaN` classifies it: absent, not a number,
      or a number (the conversion from text is left to the caller). */
  datatype NumParam = Absent | NotANumber | Numeric(n: int)

  /** The GET parameters `listThreads` reads. */
  datatype ListParams = ListParams(country: Option<string>, lang: Option<string>, off: NumParam, num: NumParam)

  /** The query handed to the database: filters, skip, limit. The sort key
      (`updated`, descending) and the projection (no messages) are fixed. */
  datatype ListQuery = ListQuery(country: Option<string>, language: Option<string>, skip: int, limit: int)

  const DefaultOffset: int := 0
  const DefaultCount: int := 20

  /** A filter is set only from a present, non-empty parameter. */
  function Filter(p: Option<string>): (r: Option<string>)
    ensures r.Some? <==> Truthy(p)
    ensures r.Some? ==> r == p
  {
    if Truthy(p) then p else None
  }

  /** A numeric parameter's value, or the default when it is absent or not a number. */
  function NumberOr(p: NumParam, default: int): (r: int)
    ensures p.Numeric? ==> r == p.n
    ensures !p.Numeric? ==> r == default
  {
    match p
    case Numeric(n) => n
    case _ => default
  }

  function BuildQuery(params: ListParams): (q: ListQuery)
    ensures q.country.Some? <==> Truthy(params.country)
    ensures q.language.Some? <==> Truthy(params.lang)
    ensures q.skip == (if params.off.Numeric? then params.off.n else DefaultOffset)
    ensures q.limit == (if params.num.Numeric? then params.num.n else DefaultCount)
  {
    ListQuery(Filter(params.country), Filter(params.lang), NumberOr(params.off, DefaultOffset),
              NumberOr(params.num, DefaultCount))
  }

  /** Whether a thread passes the query's filters. */
  predicate Matches(q: ListQuery, t: Thread) {
    && (q.country.None? || t.country == q.country.value)
    && (q.language.None? || t.language == q.language.value)
  }

  /** The built query selects exactly the threads whose country and language
      equal every non-empty parameter given. */
  lemma QuerySelects(params: ListParams, t: Thread)
    ensures Matches(BuildQuery(params), t) <==>
      && (Truthy(params.country) ==> t.country == params.country.value)
      && (Truthy(params.lang) ==> t.language == params.lang.value)
  {
  }

  /** An empty filter parameter selects as much as a missing one. */
  lemma EmptyFilterIsNoFilter(params: ListParams)
    ensures BuildQuery(params.(country := Some(""))) == BuildQuery(params.(country := None))
    ensures BuildQuery(params.(lang := Some(""))) == BuildQuery(params.(lang := None))
  {
  }
}

=== FILE: removals.dfy ===
/** Removals as written, measured against the counter invariant. Message and
    comment removal decrement their parent's counter without looking at what
    was pulled, and never touch the thread's `commentsNumber`; these lemmas
    say exactly how far each counter ends up from what it counts. Also here:
    `newMessage` assigns the thread's `updated` directly, so a stale clock
    can move it backwards. */
module Removals {
  import opened Common
  import opened Votes
  import opened Content
  import opened Invariants
  import Threads
  import Messages
  import Comments

  /** A single message's total is its own comment count. */
  lemma TotalCommentsOne(m: Message)
    ensures TotalComments([m]) == |m.comments|
  {
    assert [m][..0] == [];
  }

  /** Splicing message i out of a sequence takes its comments off the total. */
  lemma {:induction false} TotalCommentsSplice(ms: seq<Message>, i: nat)
    requires i < |ms|
    ensures TotalComments(ms) == TotalComments(ms[..i] + ms[i + 1..]) + |ms[i].comments|
  {
    var before, after := ms[..i], ms[i + 1..];
    var tail := [ms[i]] + after;
    assert ms == before + tail;
    TotalCommentsConcat(before, tail);
    TotalCommentsConcat([ms[i]], after);
    TotalCommentsOne(ms[i]);
    TotalCommentsConcat(before, after);
  }

  /** With distinct IDs, no other message shares message i's ID. */
  lemma MessageIdUnique(t: Thread, i: nat)
    requires DistinctIds(t) && i < |t.messages|
    ensures forall k :: 0 <= k < |t.messages| && k != i ==> MessageId(t.messages[k]) != t.messages[i].id
  {
    var id := t.messages[i].id;
    InSubtree(t.messages[i]);
    ElsewhereDiffers(t, i, id);
    forall k | 0 <= k < |t.messages| && k != i ensures MessageId(t.messages[k]) != id {
      InSubtree(t.messages[k]);
    }
  }

  /** Removing a message that is present, under distinct IDs, splices it out
      of the sequence and leaves the other fields as they were. */
  lemma RemoveMessageSplices(t: Thread, mid: Id, save: Save)
    requires DistinctIds(t) && Messages.Locate(t, mid).Some?
    ensures var r := Threads.RemoveMessage(t, mid, save);
      var i := Messages.Locate(t, mid).value;
      r.Ok? ==>
      && r.value.messages == t.messages[..i] + t.messages[i + 1..]
      && r.value.messagesNumber == t.messagesNumber - 1
      && r.value.commentsNumber == t.commentsNumber
  {
    var i := Messages.Locate(t, mid).value;
    MessageIdUnique(t, i);
    PullSingle(t.messages, MessageId, mid, i);
  }

  /** Counters after splicing message i out of a thread whose counters matched,
      with only `messagesNumber` decremented. */
  lemma {:induction false} SpliceCounters(t: Thread, after: Thread, i: nat)
    requires CountersMatch(t) && i < |t.messages|
    requires after.messages == t.messages[..i] + t.messages[i + 1..]
    requires after.messagesNumber == t.messagesNumber - 1
    requires after.commentsNumber == t.commentsNumber
    ensures after.messagesNumber == |after.messages|
    ensures after.commentsNumber == TotalComments(after.messages) + |t.messages[i].comments|
    ensures CountersMatch(after) <==> |t.messages[i].comments| == 0
  {
    var ms, rest := t.messages, after.messages;
    TotalCommentsSplice(ms, i);
    forall k | 0 <= k < |rest| ensures rest[k].commentsNumber == |rest[k].comments| {
      assert rest[k] == if k < i then ms[k] else ms[k + 1];
    }
  }

  /** Removing a message that is present, from a thread whose counters
      match: `messagesNumber` stays right, but the thread's `commentsNumber`
      still counts the removed message's comments, so the counters match
      afterwards exactly when that message had none. */
  lemma RemoveMessageStrandsComments(t: Thread, mid: Id, save: Save)
    requires CountersMatch(t) && DistinctIds(t) && Messages.Locate(t, mid).Some?
    ensures var r := Threads.RemoveMessage(t, mid, save);
      var gone := t.messages[Messages.Locate(t, mid).value];
      r.Ok? ==>
      && r.value.messagesNumber == |r.value.messages|
      && r.value.commentsNumber == TotalComments(r.value.messages) + |gone.comments|
      && (CountersMatch(r.value) <==> |gone.comments| == 0)
  {
    var r := Threads.RemoveMessage(t, mid, save);
    if r.Ok? {
      RemoveMessageSplices(t, mid, save);
      SpliceCounters(t, r.value, Messages.Locate(t, mid).value);
    }
  }

  /** Removing an ID that names no message still decrements `messagesNumber`. */
  lemma RemoveAbsentMessageMiscounts(t: Thread, mid: Id, save: Save)
    requires CountersMatch(t) && Messages.Locate(t, mid).None?
    ensures var r := Threads.RemoveMessage(t, mid, save);
      r.Ok? ==>
      && r.value.messages == t.messages
      && r.value.messagesNumber == |r.value.messages| - 1
      && !CountersMatch(r.value)
  {
  }

  /** Removing a comment that is present, from a thread whose counters match:
      the message's own counter stays right, the thread's `commentsNumber`
      ends up one too high. */
  lemma {:induction false} RemoveCommentLeavesThreadCount(t: Thread, mid: Id, cid: Id, messageSave: Save, threadSave: Save)
    requires CountersMatch(t) && DistinctIds(t) && Comments.Resolves(t, mid, cid)
    ensures var r := Messages.RemoveComment(t, mid, cid, messageSave, threadSave);
      r.Ok? ==>
      && r.value.messagesNumber == |r.value.messages|
      && (forall k :: 0 <= k < |r.value.messages| ==>
            r.value.messages[k].commentsNumber == |r.value.messages[k].comments|)
      && r.value.commentsNumber == TotalComments(r.value.messages) + 1
      && !CountersMatch(r.value)
  {
    var r := Messages.RemoveComment(t, mid, cid, messageSave, threadSave);
    if r.Ok? {
      var i := Messages.Locate(t, mid).value;
      var m := t.messages[i];
      var j := Comments.LocateIn(m, cid).value;
      assert CommentIdsDistinct(m);
      forall k | 0 <= k < |m.comments| && k != j ensures CommentId(m.comments[k]) != cid {
        if k < j {
          assert m.comments[k].id != m.comments[j].id;
        } else {
          assert m.comments[j].id != m.comments[k].id;
        }
      }
      PullSingle(m.comments, CommentId, cid, j);
      var m' := r.value.messages[i];
      assert |m'.comments| == |m.comments| - 1;
      assert r.value.messages == t.messages[i := m'];
      TotalCommentsReplace(t.messages, i, m');
    }
  }

  /** Removing a comment ID the message does not hold still decrements the
      message's `commentsNumber`. */
  lemma RemoveAbsentCommentMiscounts(t: Thread, mid: Id, cid: Id, messageSave: Save, threadSave: Save)
    requires CountersMatch(t) && Messages.Locate(t, mid).Some?
    requires Comments.LocateIn(t.messages[Messages.Locate(t, mid).value], cid).None?
    ensures var r := Messages.RemoveComment(t, mid, cid, messageSave, threadSave);
      var i := Messages.Locate(t, mid).value;
      r.Ok? ==>
      && r.value.messages[i].commentsNumber == |r.value.messages[i].comments| - 1
      && !CountersMatch(r.value)
  {
    var r := Messages.RemoveComment(t, mid, cid, messageSave, threadSave);
    if r.Ok? {
      var i := Messages.Locate(t, mid).value;
      assert r.value.messages[i].comments == t.messages[i].comments;
    }
  }

  /** `newMessage` sets the thread's `updated` to the new message's time
      outright, so with a clock behind the thread's `updated` the timestamp
      order breaks. A thread updated at 10 holding a message updated at 10
      gets a message at 5 and ends up updated at 5. */
  lemma StaleClockBreaksOrder()
    ensures var m := Message("m", "first", "u", 10, 10, NoVotes, [], 0);
      var t := Thread("t", "title", "text", "u", "nl", "nl", 0, 10, NoVotes, [m], 1, 0);
      var r := Threads.NewMessage(t, "n", "second", "u", 5, Saved);
      && TimesOrdered(t)
      && r.Ok? && r.value.0.updated == 5
      && !TimesOrdered(r.value.0)
  {
    var m := Message("m", "first", "u", 10, 10, NoVotes, [], 0);
    var t := Thread("t", "title", "text", "u", "nl", "nl", 0, 10, NoVotes, [m], 1, 0);
    var t' := Threads.NewMessage(t, "n", "second", "u", 5, Saved).value.0;
    assert t'.messages[0] == m;
    assert !MessageTimesOrdered(t'.messages[0], t'.updated);
  }
}

=== FILE: scenarios.dfy ===
/** Concrete runs of the model: a vote flip seen through the responses and
    the ledger, and a thread grown by one message and one comment. */
module Scenarios {
  import opened Common
  import opened Votes
  import opened Content
  import opened Ledger
  import Threads
  import Messages
  import Board

  /** User "A" creates thread "T"; user "B" downvotes it, then upvotes it. The
      responses are (0, 1, -1) and then (1, 0, 1), and the ledger ends with
      B's vote on T recorded as +1. */
  lemma DownvoteThenUpvote()
    ensures var saves := Board.Saves(Saved, Saved, Saved);
      var created := Board.NewThread(Board.Body(Some("Hi"), Some("body"), Some("it"), Some("it")), "A", "T", 1, Saved);
      && created.Ok?
      && var first := Board.CastVote(created.value, Board.OnThread, Down, "B", map[], Answered, saves, Saved);
      && first.reply == Ok(Board.VoteReply(0, 1, -1))
      && var second := Board.CastVote(first.stored, Board.OnThread, Up, "B", first.ledger, Answered, saves, Saved);
      && second.reply == Ok(Board.VoteReply(1, 0, 1))
      && CheckVote(second.ledger, "B", "T") == Some(1)
  {
    var saves := Board.Saves(Saved, Saved, Saved);
    var t := Board.NewThread(Board.Body(Some("Hi"), Some("body"), Some("it"), Some("it")), "A", "T", 1, Saved).value;
    var first := Board.CastVote(t, Board.OnThread, Down, "B", map[], Answered, saves, Saved);
    assert first.stored.votes == Tally(0, 1);
    assert first.ledger == map[("B", "T") := -1];
  }

  /** A thread, then a message in it, then a comment in that message: both
      counters read 1 and the new nodes carry their text and author. */
  lemma PostThenComment()
    ensures var created := Board.NewThread(Board.Body(Some("Hi"), Some("body"), Some("it"), Some("it")), "A", "T", 1, Saved);
      && created.Ok?
      && var posted := Threads.NewMessage(created.value, "M", "hello", "B", 2, Saved);
      && posted.Ok?
      && var commented := Messages.NewComment(posted.value.0, "M", "C", "hi back", "A", 3, Saved, Saved);
      && commented.Ok?
      && var t := commented.value.0;
      && t.messagesNumber == 1 && t.commentsNumber == 1
      && |t.messages| == 1 && t.messages[0].text == "hello" && t.messages[0].author == "B"
      && |t.messages[0].comments| == 1
      && t.messages[0].comments[0].text == "hi back" && t.messages[0].comments[0].author == "A"
      && CountersMatch(t)
  {
    var t0 := Board.NewThread(Board.Body(Some("Hi"), Some("body"), Some("it"), Some("it")), "A", "T", 1, Saved).value;
    var t1 := Threads.NewMessage(t0, "M", "hello", "B", 2, Saved).value.0;
    assert Messages.Locate(t1, "M") == Some(0);
    var t2 := Messages.NewComment(t1, "M", "C", "hi back", "A", 3, Saved, Saved).value.0;
    assert t2.messages[0].comments == [Comment("C", "hi back", "A", 3, NoVotes)];
    assert TotalComments(t2.messages) == TotalComments(t2.messages[..0]) + 1;
  }
}

=== FILE: threads.dfy ===
/** Thread-level operations (schemas/thread.js). Each ends with one `save` of
    the thread document; a failed save leaves the stored thread as it was. */
module Threads {
  import opened Common
  import opened Votes
  import opened Content

  /** `edit(title, text)`: each field is replaced only by a truthy value, and
      `updated` becomes the current time whether or not anything changed. */
  function Edit(t: Thread, title: Option<string>, text: Option<string>, now: Time, save: Save)
    : (r: Result<Thread>)
    ensures r.Ok? <==> save.Saved?
    ensures r.Err? ==> r.error == DBError
    ensures r.Ok? && Truthy(title) ==> r.value.title == title.value
    ensures r.Ok? && !Truthy(title) ==> r.value.title == t.title
    ensures r.Ok? && Truthy(text) ==> r.value.text == text.value
    ensures r.Ok? && !Truthy(text) ==> r.value.text == t.text
    ensures r.Ok? ==> r.value.updated == now
    ensures r.Ok? ==> r.value.(title := t.title, text := t.text, updated := t.updated) == t
  {
    if save.SaveFailed? then Err(DBError)
    else Ok(t.(title := UpdatedField(t.title, title), text := UpdatedField(t.text, text), updated := now))
  }

  /** `upvote` / `downvote`: the shared transition on the thread's own tally;
      nothing else in the document moves. */
  function Vote(t: Thread, prev: PreviousVote, dir: Direction, save: Save): (r: Result<Thread>)
    ensures r.Ok? <==> save.Saved?
    ensures r.Err? ==> r.error == DBError
    ensures r.Ok? ==> r.value.votes == Cast(t.votes, prev, dir)
    ensures r.Ok? ==> r.value.(votes := t.votes) == t
  {
    if save.SaveFailed? then Err(DBError) else Ok(t.(votes := Cast(t.votes, prev, dir)))
  }

  /** The message `new Message({text, author})` builds: created and updated
      at `now`, no votes, no comments. */
  function FreshMessage(id: Id, text: string, author: UserId, now: Time): Message {
    Message(id, text, author, now, now, NoVotes, [], 0)
  }

  /** `newMessage(text, author)`: append one message (the save refuses an
      empty text or author, as the schema requires both), set the thread's
      `updated` to the message's time (an assignment, not a max), count it,
      save, and hand back the new message. */
  function NewMessage(t: Thread, id: Id, text: string, author: UserId, now: Time, save: Save)
    : (r: Result<(Thread, Message)>)
    ensures r.Ok? <==> Required(text) && Required(author) && save.Saved?
    ensures r.Err? ==> r.error == DBError
    ensures r.Ok? ==> r.value.0.messages == t.messages + [r.value.1]
    ensures r.Ok? ==> r.value.1 == Message(id, text, author, now, now, NoVotes, [], 0)
    ensures r.Ok? ==> r.value.0.messagesNumber == t.messagesNumber + 1
    ensures r.Ok? ==> r.value.0.updated == r.value.1.time
    ensures r.Ok? ==>
      r.value.0.(messages := t.messages, messagesNumber := t.messagesNumber, updated := t.updated) == t
  {
    var m := FreshMessage(id, text, author, now);
    if !Required(text) || !Required(author) || save.SaveFailed? then Err(DBError)
    else Ok((t.(messages := t.messages + [m], updated := m.time, messagesNumber := t.messagesNumber + 1), m))
  }

  /** `removeMessage(id)`: pull every message with that ID and decrement
      `messagesNumber` unconditionally; `commentsNumber` and `updated` stay. */
  function RemoveMessage(t: Thread, mid: Id, save: Save): (r: Result<Thread>)
    ensures r.Ok? <==> save.Saved?
    ensures r.Err? ==> r.error == DBError
    ensures r.Ok? ==> forall m :: m in r.value.messages <==> m in t.messages && m.id != mid
    ensures r.Ok? ==> |r.value.messages| == |t.messages| - Occurrences(t.messages, MessageId, mid)
    ensures r.Ok? ==> r.value.messagesNumber == t.messagesNumber - 1
    ensures r.Ok? ==> r.value.(messages := t.messages, messagesNumber := t.messagesNumber) == t
  {
    if save.SaveFailed? then Err(DBError)
    else
      PullMembers(t.messages, MessageId, mid);
      Ok(t.(messages := Pull(t.messages, MessageId, mid), messagesNumber := t.messagesNumber - 1))
  }
}

=== FILE: views.dfy ===
/** Read-side enrichment (controllers/board.js `getThread` and
    `listThreads`): collect the IDs of every node in pre-order, ask the auth
    layer for the authors' profiles and the vote store for the caller's votes,
    index both answers by ID (a later record overwriting an earlier one), then
    give every node its author's profile (or an empty object) and the caller's
    vote on it (or 0). */
module Views {
  import opened Common
  import opened Votes
  import opened Content
  import opened Ledger
  import opened Query

  // ---------------------------------------------------------------------
  // Indexing a list of records by ID

  /** The last element of `xs` whose key is `k`, if any. */
  function LastWith<T>(xs: seq<T>, key: T -> Id, k: Id): (r: Option<T>)
    ensures r.Some? ==> r.value in xs && key(r.value) == k
    ensures r.None? <==> forall x :: x in xs ==> key(x) != k
    decreases |xs|
  {
    if |xs| == 0 then None
    else if key(xs[|xs| - 1]) == k then Some(xs[|xs| - 1])
    else
      var r := LastWith(xs[..|xs| - 1], key, k);
      assert forall x :: x in xs ==> x in xs[..|xs| - 1] || x == xs[|xs| - 1];
      r
  }

  /** `m` holds one entry per key occurring in `xs`: the last record with that key. */
  ghost predicate Indexes<T>(m: map<Id, T>, xs: seq<T>, key: T -> Id) {
    && (forall k :: k in m <==> LastWith(xs, key, k).Some?)
    && (forall k :: k in m ==> LastWith(xs, key, k) == Some(m[k]))
  }

  /** The loop that builds `authorData` and `userVotes`. */
  method IndexBy<T>(xs: seq<T>, key: T -> Id) returns (m: map<Id, T>)
    ensures Indexes(m, xs, key)
  {
    m := map[];
    var i := 0;
    while i < |xs|
      invariant 0 <= i <= |xs|
      invariant forall k :: k in m <==> LastWith(xs[..i], key, k).Some?
      invariant forall k :: k in m ==> LastWith(xs[..i], key, k) == Some(m[k])
    {
      assert xs[..i + 1][..i] == xs[..i];
      m := m[key(xs[i]) := xs[i]];
      i := i + 1;
    }
    assert xs[..i] == xs;
  }

  // ---------------------------------------------------------------------
  // What the two lookups answer

  /** A user profile as the auth layer returns it. */
  datatype Profile = Profile(id: UserId, username: string)

  function ProfileId(p: Profile): Id { p.id }

  /** The `author` field of an enriched node: the profile, or `{}` when the
      auth layer returned none for the author. */
  datatype AuthorView = Unknown | Known(profile: Profile)

  /** One record of the vote store as a lookup returns it. */
  datatype VoteRecord = VoteRecord(user: UserId, content: Id, vote: int)

  function RecordContent(v: VoteRecord): Id { v.content }

  function AuthorOf(profiles: map<Id, Profile>, u: UserId): AuthorView {
    if u in profiles then Known(profiles[u]) else Unknown
  }

  function VotedOf(votes: map<Id, VoteRecord>, c: Id): int {
    if c in votes then votes[c].vote else 0
  }

  /** A correct answer to "the caller's votes on these contents": exactly the
      caller's ledger entries whose content is among the IDs. */
  predicate AnswersVotes(records: seq<VoteRecord>, l: VoteLedger, user: UserId, ids: set<Id>) {
    && (forall r :: r in records ==>
          r.user == user && r.content in ids && (user, r.content) in l && l[(user, r.content)] == r.vote)
    && (forall c :: c in ids && (user, c) in l ==> exists r :: r in records && r.content == c)
  }

  /** Indexed from a correct answer, the caller's vote on any asked-for content
      is the ledger's value, or 0 when the ledger has none. */
  lemma VotedFromLedger(records: seq<VoteRecord>, votes: map<Id, VoteRecord>, l: VoteLedger, user: UserId,
                        ids: set<Id>, c: Id)
    requires AnswersVotes(records, l, user, ids)
    requires Indexes(votes, records, RecordContent)
    requires c in ids
    ensures VotedOf(votes, c) == (if (user, c) in l then l[(user, c)] else 0)
  {
    if (user, c) in l {
      var r :| r in records && r.content == c;
      assert RecordContent(r) == c;
    }
  }

  /** Indexed from any answer, a node's author is a returned profile carrying
      that user's ID, or `{}` exactly when no returned profile does. */
  lemma AuthorFromProfiles(answer: seq<Profile>, profiles: map<Id, Profile>, u: UserId)
    requires Indexes(profiles, answer, ProfileId)
    ensures AuthorOf(profiles, u).Known? ==> AuthorOf(profiles, u).profile in answer && AuthorOf(profiles, u).profile.id == u
    ensures AuthorOf(profiles, u).Unknown? <==> forall p :: p in answer ==> p.id != u
  {
    if u !in profiles {
      forall p | p in answer ensures p.id != u {
        assert ProfileId(p) != u;
      }
    }
  }

  // ---------------------------------------------------------------------
  // Pre-order collection of IDs and authors

  /** One node's ID and author, as pushed to `contentIds` and `authorsIds`. */
  datatype NodeRef = NodeRef(id: Id, author: UserId)

  function CommentRefs(cs: seq<Comment>): (r: seq<NodeRef>)
    ensures |r| == |cs|
    ensures forall j :: 0 <= j < |cs| ==> r[j] == NodeRef(cs[j].id, cs[j].author)
  {
    seq(|cs|, j requires 0 <= j < |cs| => NodeRef(cs[j].id, cs[j].author))
  }

  function MessageRefs(m: Message): seq<NodeRef> {
    [NodeRef(m.id, m.author)] + CommentRefs(m.comments)
  }

  function MessagesRefs(ms: seq<Message>): seq<NodeRef>
    decreases |ms|
  {
    if |ms| == 0 then [] else MessagesRefs(ms[..|ms| - 1]) + MessageRefs(ms[|ms| - 1])
  }

  /** The thread, then each message followed by its comments. */
  function Preorder(t: Thread): seq<NodeRef> {
    [NodeRef(t.id, t.author)] + MessagesRefs(t.messages)
  }

  /** Every node's ID appears in the pre-order walk, once per node. */
  lemma {:induction false} MessagesRefsCover(ms: seq<Message>)
    ensures |MessagesRefs(ms)| == |ms| + TotalComments(ms)
    ensures forall i :: 0 <= i < |ms| ==> NodeRef(ms[i].id, ms[i].author) in MessagesRefs(ms)
    ensures forall i, j :: 0 <= i < |ms| && 0 <= j < |ms[i].comments| ==>
      NodeRef(ms[i].comments[j].id, ms[i].comments[j].author) in MessagesRefs(ms)
    decreases |ms|
  {
    if |ms| > 0 {
      var n := |ms| - 1;
      var init := ms[..n];
      MessagesRefsCover(init);
      var last := MessageRefs(ms[n]);
      assert MessagesRefs(ms) == MessagesRefs(init) + last;
      forall i | 0 <= i < |ms| ensures NodeRef(ms[i].id, ms[i].author) in MessagesRefs(ms) {
        if i < n {
          assert ms[i] == init[i];
        } else {
          assert last[0] == NodeRef(ms[i].id, ms[i].author);
        }
      }
      forall i, j | 0 <= i < |ms| && 0 <= j < |ms[i].comments|
        ensures NodeRef(ms[i].comments[j].id, ms[i].comments[j].author) in MessagesRefs(ms)
      {
        if i < n {
          assert ms[i] == init[i];
        } else {
          assert last[j + 1] == NodeRef(ms[i].comments[j].id, ms[i].comments[j].author);
        }
      }
    }
  }

  /** The walk visits 1 + messages + comments nodes, the thread first. */
  lemma PreorderCovers(t: Thread)
    ensures |Preorder(t)| == 1 + |t.messages| + TotalComments(t.messages)
    ensures Preorder(t)[0] == NodeRef(t.id, t.author)
    ensures forall i :: 0 <= i < |t.messages| ==> NodeRef(t.messages[i].id, t.messages[i].author) in Preorder(t)
    ensures forall i, j :: 0 <= i < |t.messages| && 0 <= j < |t.messages[i].comments| ==>
      NodeRef(t.messages[i].comments[j].id, t.messages[i].comments[j].author) in Preorder(t)
  {
    MessagesRefsCover(t.messages);
  }

  /** The nested loops of `getThread` that fill `contentIds` and `authorsIds`. */
  method CollectRefs(t: Thread) returns (refs: seq<NodeRef>)
    ensures refs == Preorder(t)
  {
    refs := [NodeRef(t.id, t.author)];
    var i := 0;
    while i < |t.messages|
      invariant 0 <= i <= |t.messages|
      invariant refs == [NodeRef(t.id, t.author)] + MessagesRefs(t.messages[..i])
    {
      var m := t.messages[i];
      var before := refs;
      refs := refs + [NodeRef(m.id, m.author)];
      var j := 0;
      while j < |m.comments|
        invariant 0 <= j <= |m.comments|
        invariant refs == before + [NodeRef(m.id, m.author)] + CommentRefs(m.comments[..j])
      {
        assert CommentRefs(m.comments[..j + 1]) == CommentRefs(m.comments[..j]) + [NodeRef(m.comments[j].id, m.comments[j].author)];
        refs := refs + [NodeRef(m.comments[j].id, m.comments[j].author)];
        j := j + 1;
      }
      assert m.comments[..j] == m.comments;
      assert t.messages[..i + 1][..i] == t.messages[..i];
      i := i + 1;
    }
    assert t.messages[..i] == t.messages;
  }

  function Ids(refs: seq<NodeRef>): set<Id> {
    set r | r in refs :: r.id
  }

  // ---------------------------------------------------------------------
  // Enriched documents

  datatype EComment = EComment(id: Id, text: string, author: AuthorView, time: Time, votes: Tally, voted: int)

  datatype EMessage = EMessage(id: Id, text: string, author: AuthorView, time: Time, updated: Time, votes: Tally,
                               voted: int, comments: seq<EComment>, commentsNumber: int)

  datatype EThread = EThread(id: Id, title: string, text: string, author: AuthorView, country: string,
                             language: string, time: Time, updated: Time, votes: Tally, voted: int,
                             messages: seq<EMessage>, messagesNumber: int, commentsNumber: int)

  /** A thread as `listThreads` returns it: projected without messages. */
  datatype ESummary = ESummary(id: Id, title: string, text: string, author: AuthorView, country: string,
                               language: string, time: Time, updated: Time, votes: Tally, voted: int,
                               messagesNumber: int, commentsNumber: int)

  function EnrichComment(c: Comment, profiles: map<Id, Profile>, votes: map<Id, VoteRecord>): EComment {
    EComment(c.id, c.text, AuthorOf(profiles, c.author), c.time, c.votes, VotedOf(votes, c.id))
  }

  function EnrichMessage(m: Message, profiles: map<Id, Profile>, votes: map<Id, VoteRecord>): EMessage {
    EMessage(m.id, m.text, AuthorOf(profiles, m.author), m.time, m.updated, m.votes, VotedOf(votes, m.id),
             seq(|m.comments|, j requires 0 <= j < |m.comments| => EnrichComment(m.comments[j], profiles, votes)),
             m.commentsNumber)
  }

  function EnrichThread(t: Thread, profiles: map<Id, Profile>, votes: map<Id, VoteRecord>): EThread {
    EThread(t.id, t.title, t.text, AuthorOf(profiles, t.author), t.country, t.language, t.time, t.updated,
            t.votes, VotedOf(votes, t.id),
            seq(|t.messages|, i requires 0 <= i < |t.messages| => EnrichMessage(t.messages[i], profiles, votes)),
            t.messagesNumber, t.commentsNumber)
  }

  function Summarize(t: Thread, profiles: map<Id, Profile>, votes: map<Id, VoteRecord>): ESummary {
    ESummary(t.id, t.title, t.text, AuthorOf(profiles, t.author), t.country, t.language, t.time, t.updated,
             t.votes, VotedOf(votes, t.id), t.messagesNumber, t.commentsNumber)
  }

  /** Forgetting the added fields gives back the stored comment, with the
      author's ID in place of the profile. */
  function PlainComment(e: EComment, author: UserId): Comment {
    Comment(e.id, e.text, author, e.time, e.votes)
  }

  /** Enrichment keeps every stored field of every node and adds, per node,
      the author view and the caller's vote looked up by that node's own IDs. */
  lemma EnrichKeepsTree(t: Thread, profiles: map<Id, Profile>, votes: map<Id, VoteRecord>)
    ensures var e := EnrichThread(t, profiles, votes);
      && e.id == t.id && e.title == t.title && e.text == t.text && e.votes == t.votes
      && e.time == t.time && e.updated == t.updated
      && e.messagesNumber == t.messagesNumber && e.commentsNumber == t.commentsNumber
      && e.author == AuthorOf(profiles, t.author) && e.voted == VotedOf(votes, t.id)
      && |e.messages| == |t.messages|
      && forall i :: 0 <= i < |t.messages| ==>
        var m := t.messages[i];
        var em := e.messages[i];
        && em.id == m.id && em.text == m.text && em.votes == m.votes && em.time == m.time
        && em.updated == m.updated && em.commentsNumber == m.commentsNumber
        && em.author == AuthorOf(profiles, m.author) && em.voted == VotedOf(votes, m.id)
        && |em.comments| == |m.comments|
        && forall j :: 0 <= j < |m.comments| ==>
          && PlainComment(em.comments[j], m.comments[j].author) == m.comments[j]
          && em.comments[j].author == AuthorOf(profiles, m.comments[j].author)
          && em.comments[j].voted == VotedOf(votes, m.comments[j].id)
  {
  }

  // ---------------------------------------------------------------------
  // The two read handlers

  /** `getThread`: the IDs and authors it asks about, and the enriched thread
      or `DBError` when either lookup fails. */
  method GetThread(t: Thread, authorsAnswer: Result<seq<Profile>>, votesAnswer: Result<seq<VoteRecord>>)
    returns (r: Result<EThread>, asked: seq<NodeRef>)
    ensures asked == Preorder(t)
    ensures r.Err? <==> authorsAnswer.Err? || votesAnswer.Err?
    ensures r.Err? ==> r.error == DBError
    ensures r.Ok? ==> exists profiles, votes ::
      && Indexes(profiles, authorsAnswer.value, ProfileId)
      && Indexes(votes, votesAnswer.value, RecordContent)
      && r.value == EnrichThread(t, profiles, votes)
  {
    asked := CollectRefs(t);
    if authorsAnswer.Err? {
      return Err(DBError), asked;
    }
    var profiles := IndexBy(authorsAnswer.value, ProfileId);
    if votesAnswer.Err? {
      return Err(DBError), asked;
    }
    var votes := IndexBy(votesAnswer.value, RecordContent);
    r := Ok(EnrichThread(t, profiles, votes));
  }

  /** `getThread` end to end: with a correct answer from the vote store, every
      node of the returned thread carries the caller's ledger vote on it, or 0. */
  lemma {:induction false} GetThreadShowsLedger(t: Thread, l: VoteLedger, user: UserId, records: seq<VoteRecord>,
                                                profiles: map<Id, Profile>, votes: map<Id, VoteRecord>)
    requires AnswersVotes(records, l, user, Ids(Preorder(t)))
    requires Indexes(votes, records, RecordContent)
    ensures var e := EnrichThread(t, profiles, votes);
      && e.voted == (if (user, t.id) in l then l[(user, t.id)] else 0)
      && forall i :: 0 <= i < |t.messages| ==>
        && e.messages[i].voted == (if (user, t.messages[i].id) in l then l[(user, t.messages[i].id)] else 0)
        && forall j :: 0 <= j < |t.messages[i].comments| ==>
          var c := t.messages[i].comments[j].id;
          e.messages[i].comments[j].voted == (if (user, c) in l then l[(user, c)] else 0)
  {
    var ids := Ids(Preorder(t));
    PreorderCovers(t);
    assert Preorder(t)[0] in Preorder(t);
    VotedFromLedger(records, votes, l, user, ids, t.id);
    forall i | 0 <= i < |t.messages|
      ensures VotedOf(votes, t.messages[i].id) == (if (user, t.messages[i].id) in l then l[(user, t.messages[i].id)] else 0)
    {
      assert NodeRef(t.messages[i].id, t.messages[i].author) in Preorder(t);
      VotedFromLedger(records, votes, l, user, ids, t.messages[i].id);
    }
    forall i, j | 0 <= i < |t.messages| && 0 <= j < |t.messages[i].comments|
      ensures var c := t.messages[i].comments[j].id; VotedOf(votes, c) == (if (user, c) in l then l[(user, c)] else 0)
    {
      var c := t.messages[i].comments[j];
      assert NodeRef(c.id, c.author) in Preorder(t);
      VotedFromLedger(records, votes, l, user, ids, c.id);
    }
  }

  function ThreadId(t: Thread): Id { t.id }

  /** One reference per listed thread, in page order: the `users` and
      `threadIds` arrays `listThreads` fills before its two lookups. */
  function PageRefs(page: seq<Thread>): (r: seq<NodeRef>)
    ensures |r| == |page|
    ensures forall k :: 0 <= k < |page| ==> r[k] == NodeRef(page[k].id, page[k].author)
  {
    seq(|page|, k requires 0 <= k < |page| => NodeRef(page[k].id, page[k].author))
  }

  /** The loop that pushes each listed thread's author and ID. */
  method CollectPageRefs(page: seq<Thread>) returns (refs: seq<NodeRef>)
    ensures refs == PageRefs(page)
  {
    refs := [];
    var i := 0;
    while i < |page|
      invariant 0 <= i <= |page|
      invariant |refs| == i
      invariant forall k :: 0 <= k < i ==> refs[k] == NodeRef(page[k].id, page[k].author)
    {
      refs := refs + [NodeRef(page[i].id, page[i].author)];
      i := i + 1;
    }
  }

  /** `listThreads` end to end: with a correct answer from the vote store for
      the thread IDs the handler asks about, each summary carries the caller's
      ledger vote on that thread, or 0. */
  lemma ListShowsLedger(page: seq<Thread>, l: VoteLedger, user: UserId, records: seq<VoteRecord>,
                        profiles: map<Id, Profile>, votes: map<Id, VoteRecord>, k: nat)
    requires AnswersVotes(records, l, user, Ids(PageRefs(page)))
    requires Indexes(votes, records, RecordContent)
    requires k < |page|
    ensures Summarize(page[k], profiles, votes).voted == (if (user, page[k].id) in l then l[(user, page[k].id)] else 0)
  {
    assert PageRefs(page)[k] in PageRefs(page);
    VotedFromLedger(records, votes, l, user, Ids(PageRefs(page)), page[k].id);
  }

  /** The `threadsData` object: the two answers indexed by ID, then one
      summary per thread ID of the page (a later thread with the same ID
      overwriting an earlier one). */
  method SummaryMap(page: seq<Thread>, authors: seq<Profile>, records: seq<VoteRecord>)
    returns (data: map<Id, ESummary>)
    ensures forall id :: id in data <==> exists t :: t in page && t.id == id
    ensures exists profiles, votes ::
      && Indexes(profiles, authors, ProfileId)
      && Indexes(votes, records, RecordContent)
      && forall id :: id in data ==> data[id] == Summarize(LastWith(page, ThreadId, id).value, profiles, votes)
  {
    var profiles := IndexBy(authors, ProfileId);
    var votes := IndexBy(records, RecordContent);
    var byId := IndexBy(page, ThreadId);
    data := map id | id in byId :: Summarize(byId[id], profiles, votes);
    forall id | exists t :: t in page && t.id == id ensures id in data {
      var t :| t in page && t.id == id;
      assert ThreadId(t) == id;
    }
  }

  /** `listThreads`: the query it sends, the authors and thread IDs it asks
      the two lookups about (those of the returned page, in page order), then
      one summary per returned thread keyed by thread ID; an empty page
      answers `{}` without further lookups; any failed lookup answers `DBError`. */
  method ListThreads(params: ListParams, found: Result<seq<Thread>>, authorsAnswer: Result<seq<Profile>>,
                     votesAnswer: Result<seq<VoteRecord>>)
    returns (q: ListQuery, asked: seq<NodeRef>, r: Result<map<Id, ESummary>>)
    ensures q == BuildQuery(params)
    ensures asked == if found.Ok? then PageRefs(found.value) else []
    ensures found.Err? ==> r == Err(DBError)
    ensures found.Ok? && |found.value| == 0 ==> r == Ok(map[])
    ensures found.Ok? && |found.value| > 0 ==> (r.Err? <==> authorsAnswer.Err? || votesAnswer.Err?)
    ensures r.Err? ==> r.error == DBError
    ensures r.Ok? ==> forall id :: id in r.value <==> exists t :: t in found.value && t.id == id
    ensures r.Ok? && |found.value| > 0 ==> exists profiles, votes ::
      && Indexes(profiles, authorsAnswer.value, ProfileId)
      && Indexes(votes, votesAnswer.value, RecordContent)
      && forall id :: id in r.value ==>
        r.value[id] == Summarize(LastWith(found.value, ThreadId, id).value, profiles, votes)
  {
    q := BuildQuery(params);
    asked := [];
    if found.Err? {
      return q, asked, Err(DBError);
    }
    var page := found.value;
    asked := CollectPageRefs(page);
    if |page| == 0 {
      return q, asked, Ok(map[]);
    }
    if authorsAnswer.Err? {
      return q, asked, Err(DBError);
    }
    if votesAnswer.Err? {
      return q, asked, Err(DBError);
    }
    var data := SummaryMap(page, authorsAnswer.value, votesAnswer.value);
    r := Ok(data);
  }
}

=== FILE: votes.dfy ===
/** The three-way vote rule every content node applies to its own tally
    (schemas/thread.js, schemas/message.js and schemas/comment.js repeat it). */
module Votes {
  import opened Common

  /** The `upvotes` / `downvotes` pair of one thread, message or comment.
      Plain integers: the source decrements without a lower bound. */
  datatype Tally = Tally(upvotes: int, downvotes: int)

  const NoVotes := Tally(0, 0)

  /** An upvote (`PUT .../vote`) or a downvote (`DELETE .../vote`). */
  datatype Direction = Up | Down {
    /** The value the ledger records for this direction. */
    function Value(): int {
      if Up? then 1 else -1
    }
  }

  /** The `vote` of the caller's previous ledger record, None when there is none. */
  type PreviousVote = Option<int>

  /** The only values the ledger ever stores. */
  predicate IsLedgerValue(v: int) {
    v == 1 || v == -1
  }

  predicate ValidPrevious(prev: PreviousVote) {
    prev.None? || IsLedgerValue(prev.value)
  }

  /** Reference definition: what one user's vote state contributes to a tally. */
  function Share(prev: PreviousVote): Tally {
    match prev
    case None => NoVotes
    case Some(v) =>
      if v == 1 then Tally(1, 0)
      else if v == -1 then Tally(0, 1)
      else NoVotes
  }

  /** The transition `upvote` / `downvote` apply, given the previous record. */
  function Cast(t: Tally, prev: PreviousVote, dir: Direction): (r: Tally)
    // the tally moves from the user's old share to the new one
    ensures ValidPrevious(prev) ==>
      r.upvotes == t.upvotes - Share(prev).upvotes + Share(Some(dir.Value())).upvotes
    ensures ValidPrevious(prev) ==>
      r.downvotes == t.downvotes - Share(prev).downvotes + Share(Some(dir.Value())).downvotes
    // repeating the direction already recorded is a no-op
    ensures prev == Some(dir.Value()) ==> r == t
    // a first vote adds one to the total, a flip or a repeat keeps it
    ensures ValidPrevious(prev) ==>
      r.upvotes + r.downvotes == t.upvotes + t.downvotes + (if prev.None? then 1 else 0)
  {
    match dir
    case Up =>
      if prev.None? then Tally(t.upvotes + 1, t.downvotes)
      else if prev.value == -1 then Tally(t.upvotes + 1, t.downvotes - 1)
      else t
    case Down =>
      if prev.None? then Tally(t.upvotes, t.downvotes + 1)
      else if prev.value == 1 then Tally(t.upvotes - 1, t.downvotes + 1)
      else t
  }

  /** Casting the same direction again, once the ledger records it, changes nothing. */
  lemma CastIsIdempotent(t: Tally, prev: PreviousVote, dir: Direction)
    ensures Cast(Cast(t, prev, dir), Some(dir.Value()), dir) == Cast(t, prev, dir)
  {
  }

  /** A flip moves exactly one vote from one side to the other. */
  lemma FlipMovesOneVote(t: Tally, dir: Direction)
    ensures var r := Cast(t, Some(-dir.Value()), dir);
      r.upvotes - t.upvotes == dir.Value() && r.downvotes - t.downvotes == -dir.Value()
  {
  }
}
